=== FILE: README.md ===
# IRC poll bot — a Dafny model

This project models the core of `votebot.py`, an IRC bot that runs polls in a
channel. Users address the bot as `.votebot <command>` and it answers with
channel notices. Five commands exist:

- `createpoll <pollID> <question> <answers…>` opens a poll. Its arguments are
  split shell-style, as `shlex.split` does.
- `vote <pollID> <answer number>` records one vote per voter host and poll.
- `pollinfo <pollID>` shows a poll's question and its answers with their
  counts.
- `list` names every open poll.
- `help [<command>]` shows help.

The model follows the program's structure:

| file | module | models |
|---|---|---|
| `wrappers.dfy` | `Wrappers` | `Option` and `Result` |
| `errors.dfy` | `BotErrors` | the exceptions the bot raises and catches (`BadVoteOption`, `BadPollIDValue`, `HostAlreadyVoted`, `ValueError`, `IndexError`) as one datatype |
| `pytext.dfy` | `PyText` | the `str` operations used: `split()`, `split(sep, 1)`, `strip()` and `lower()`; also `" ".join` (`Unwords`), which the bot never calls, to write the argument text the round-trip lemmas read back |
| `numerals.dfy` | `Numerals` | `int(token)` and `%d` |
| `shlex.dfy` | `Shlex` | `shlex.split` as a state machine, and how tokens can be written so that it reads them back |
| `polls.dfy` | `Polls` | `Poll` and `AnswerOption`: the value-level vote step `CastVote` with its invariant, and the class `Poll` whose `VoteForAnswer` updates the poll in place |
| `commands.dfy` | `Commands` | the two argument parsers, the prefix check of `on_pubmsg`, the first-word dispatch, the voter host, and the wording of every notice (`Notice`, `Text`) |
| `votebot.dfy` | `Bot` | the class `VoteBot` with its registry of polls and the handlers `do_command`, `handleVote`, `handleCreatePoll`, `handlePollInfo`, `displayPollInfo` and `handleList`; `handleHelp` reads no bot state and is the function `Commands.HelpReply` |

Two ideas run through the model.

**Handler replies.** A handler's reply is a `Reply` value. It is either the
notices the handler sends, in order, or the Python exception that escapes the
handler before it sends anything (`Raised`). `Text` gives each notice's exact
wording.

**Registry.** The registry is the class `VoteBot`. It holds the map `polls`
from poll ID to `Poll` object. Beside the map it keeps `pollOrder`, the
sequence of IDs in creation order, which is the iteration order of a Python
dictionary. `VoteBot.Valid` is the registry invariant:
- every poll is listed once in `pollOrder`;
- every poll is stored under its own ID, of at most 10 characters;
- every poll keeps the poll invariant `Polls.WellFormed`. Its answers are
  numbered exactly 1..n, each carries its own number, and the counts add up
  to the number of hosts that have voted.

Each handler method is proved against a specification:
- a read-only handler against a function (`InfoOf`, `PollInfoReply`,
  `ListReply`, `HelpReply`);
- a changing handler against a two-state predicate (`VoteDone`,
  `CreateDone`) that states the reply and the new state of every poll in
  terms of the value-level functions `VoteStep` and `CreateRequest`.

The properties of those functions are proved as lemmas.

Where the bot's documented behaviour and its code differ, the model follows
the code; the one such place is the help text's `createpoll` example, below.
`BotExceptions.py` defines only `BadVoteOption`.
`BadPollIDValue` and `HostAlreadyVoted` are modelled from their uses at
`votebot.py:10-12`, `:57` and `:182-185`.

The example in the `createpoll` help text (`votebot.py:24`),
`createpoll pets 'who's better?' dogs cats 'cat dogs'`, cannot be parsed:
`shlex` reads the apostrophe of "who's" as a closing quote, so the line ends
inside an open quote and the bot answers with the arguments notice
(`Commands.HelpExampleRefused`). The same line written with double quotes
parses as intended (`Shlex.PetsExample`). The model keeps the help text as
written.

## Model

| member | source | states |
|---|---|---|
| Polls.CastVote | votebot.py:54-64 | A vote succeeds exactly when the host has not voted and the answer number exists. The host check comes first: a host that has voted gets HostAlreadyVoted whatever the number, and anyone else naming a missing number gets BadVoteOption. On success, the chosen answer keeps its text and number and its count goes up by one. Every other answer is unchanged, and the host is added to the voted hosts. |
| Polls.NumberedAnswers | votebot.py:46-48 | The answers of a new poll are numbered exactly 1..n. Answer k has the k-th text, the number k and count 0. |
| Polls.OpeningWellFormed | votebot.py:39-48 | A new poll has answers 1..n with their texts and zero counts, and nobody has voted. It satisfies the poll invariant. |
| Polls.CastVoteKeepsWellFormed | votebot.py:54-64 | A successful vote keeps the poll invariant: the counts still add up to the number of hosts that have voted. |
| Polls.SecondVoteRejected | votebot.py:56-57 | After a successful vote, every further vote by the same host is refused with HostAlreadyVoted. |
| Polls.CastVoteMonotone | votebot.py:59-63 | No count ever goes down. The total of the counts goes up by exactly one on a successful vote and stays the same otherwise. |
| Polls.DogsAndCats | votebot.py:39-64 | A poll opened with "dogs" and "cats" that gets a vote for answer 1 holds "dogs" with 1 vote and "cats" with 0. The same host is then refused. |
| Polls.Poll.constructor | votebot.py:39-48 | The new poll keeps the question, ID and creator. Its state is the opening state of its answer texts, and the poll invariant holds. |
| Polls.Poll.VoteForAnswer | votebot.py:54-64 | On success, the poll's new state and the returned answer are those of CastVote on the old state. On refusal, the error is CastVote's and the state is unchanged. The poll invariant is kept. |
| PyText.Words | votebot.py:262 | Every token of `str.split()` is a non-empty run of non-whitespace characters. |
| PyText.WordsUnwords | votebot.py:262 | Splitting words joined by single spaces gives the same words back. |
| PyText.WordsSkipSpace | votebot.py:262 | Leading whitespace of any kind and length starts no token: `split()` of it followed by any text is `split()` of the text. |
| PyText.WordsFirst | votebot.py:262 | A word followed by one or more whitespace characters is the first token, and the tokens of the rest follow it. |
| PyText.SplitOnce | votebot.py:100 | `split(sep, 1)` finds no separator exactly when there is none, and then returns the whole text. Otherwise the text is the part before the first separator, the separator, and the rest. |
| PyText.SplitOnceAt | votebot.py:110 | Splitting at the first separator gives back the prefix before it and the rest after it. |
| PyText.StripLeft | votebot.py:102 | `strip()` removes only leading whitespace, and all of it. |
| PyText.StripRight | votebot.py:102 | `strip()` removes only trailing whitespace, and all of it. |
| PyText.Strip | votebot.py:102 | `strip()` keeps a middle part of the text; everything before and after it is whitespace, and the kept part neither starts nor ends with whitespace. |
| Numerals.IntToDecimal | votebot.py:157 | `%d` renders an optional minus sign followed by digits. |
| Numerals.DecimalRoundTrip | votebot.py:268 | Reading the decimal digits of a natural number gives that number back. |
| Numerals.ParseIntRoundTrip | votebot.py:268 | `int()` of the `%d` rendering of any integer gives that integer. |
| Numerals.ParseInt | votebot.py:268 | `int()` accepts a text exactly when it is digits, optionally after one `+` or `-`, with at least one digit (so `"a5"`, `"--5"` and `"-"` are refused); a negative value comes from a leading minus sign. |
| Numerals.ParseSigned | votebot.py:268 | A sign (or none) followed by digits is read as the digits' decimal value, negated after `-`: `"+5"` is 5, `"007"` is 7, `"-0"` is 0. |
| Shlex.ReadWritten | votebot.py:250 | A bare, single-quoted or double-quoted token that needs no escapes is read back as its text. |
| Shlex.Split | votebot.py:250 | Blank input has no tokens. Input without double quotes or backslashes that holds an odd number of single quotes is the "No closing quotation" error. |
| Shlex.LexBlanks | votebot.py:250 | Blanks between tokens produce no token. |
| Shlex.LexUnbalanced | votebot.py:250 | Without double quotes and backslashes, each single quote switches between quoted and unquoted text, so input that ends inside quotes by parity is the "No closing quotation" error. |
| Shlex.LexUnclosedSingle | votebot.py:250 | Inside single quotes, text with no closing quote is the "No closing quotation" error. |
| Shlex.SplitLine | votebot.py:250 | `shlex.split` of tokens written one after another, separated by spaces, returns their texts in order. |
| Shlex.LexAfterLine | votebot.py:250 | Written tokens followed by a space are read as their texts, in front of whatever the rest of the line gives. An error in the rest is the error of the whole line. |
| Shlex.UnclosedQuote | votebot.py:250 | Any written tokens followed by a single quote that is never closed are the "No closing quotation" error. |
| Shlex.LexUnclosedDouble | votebot.py:250 | Inside double quotes, text with no closing quote and no backslash is the "No closing quotation" error. |
| Shlex.UnclosedDoubleQuote | votebot.py:250 | Any written tokens followed by a double quote that is never closed are the "No closing quotation" error. |
| Shlex.FiveQuotesUnclosed | votebot.py:250 | Five plain pieces, each followed by a single quote, leave the last quote open, which is the error. |
| Shlex.HelpExampleUnclosed | votebot.py:24 | The arguments of the `createpoll` help example, `pets 'who's better?' dogs cats 'cat dogs'`, are the "No closing quotation" error. |
| Shlex.DocstringExample | votebot.py:248-250 | The docstring's example `time "What time is it?" 3pm "4 o clock"` splits into the four tokens the docstring describes. |
| Shlex.PetsExample | votebot.py:250 | `pets "who's better?" dogs cats "cat dogs"` splits into `pets`, `who's better?`, `dogs`, `cats` and `cat dogs`. |
| Commands.ParseCreatePollArgs | votebot.py:247-257 | A parsed request has an ID of at most 10 characters that is not open, and at least one answer. Every failure is a ValueError or BadPollIDValue. |
| Commands.CreatePollArgsRoundTrip | votebot.py:250-257 | A line of an ID, a question and one or more answers parses to exactly those, unless the ID is too long or already open. In that case the result is BadPollIDValue carrying the ID. This covers only lines built by `Shlex.Line`: tokens written without escapes (bare, or in single or double quotes) and joined by single spaces. |
| Commands.CreatePollArgsTooFew | votebot.py:250-252 | A shell line of fewer than three tokens is the ValueError. |
| Commands.CreatePollArgsUnclosedQuote | votebot.py:250 | A create-poll line that opens a single quote and never closes it is the ValueError of `shlex`, whatever tokens come before the quote. |
| Commands.CreatePollArgsUnclosedDoubleQuote | votebot.py:250 | The same for a double quote that is never closed. |
| Commands.HelpExampleRefused | votebot.py:22-24 | The create-poll help text's own example is refused with the ValueError of `shlex`. |
| Commands.ParseVoteArgs | votebot.py:259-271 | Every failure is the ValueError or BadVoteOption. A parsed poll ID is a single word. |
| Commands.VoteArgsRoundTrip | votebot.py:262-271 | A poll ID, a rendered integer and any further words parse to that ID and that integer. |
| Commands.VoteArgsTooFew | votebot.py:262-265 | Fewer than two words is the ValueError. |
| Commands.VoteArgsNotInteger | votebot.py:266-270 | A second word that is not an integer is BadVoteOption. |
| Commands.CommandInput | votebot.py:98-103 | A message without a space is never a command. A command that is passed on has no whitespace at either end. |
| Commands.AddressedCommand | votebot.py:98-103 | A message whose first word equals `.nickname` in any ASCII case passes the rest on stripped. A command typed without surrounding whitespace is passed on as typed. |
| Commands.UnaddressedPrefix | votebot.py:100-101 | A message whose first word differs from `.nickname` in more than ASCII case is ignored. |
| Commands.SplitCommand | votebot.py:110-115 | The command word has no space. There are no arguments exactly when the input has no space, and then the word is the whole input. Otherwise the input is the word, a space and the arguments. |
| Commands.Route | votebot.py:117-129 | Each of the five command words selects its own handler, and only that word does. Any other word is not understood and is carried along for the reply. |
| Commands.VoterHost | votebot.py:136-137 | A source without `!` has no host. A host is the text after an `@` at the end of the source. |
| Commands.Nick | votebot.py:166 | The nick has no `!`. It is the whole source or the part before its first `!`. |
| Commands.VoterHostOfMask | votebot.py:137 | For a source `nick!user@host`, the voter identity is `host` and the creator's nick is `nick`. |
| Commands.OptionLines | votebot.py:216-219 | There is one answer line per answer. |
| Commands.OptionLinesInOrder | votebot.py:216-219 | Line k shows answer k with its text and count, in ascending order of number. |
| Commands.ShowOptions | votebot.py:216-219 | The loop over the sorted answers produces exactly the answer lines 1..n in order. |
| Commands.InfoLinesInOrder | votebot.py:205-219 | A poll's display has n + 1 lines: the header with its ID and question, then answer k on line k. |
| Commands.Text | votebot.py:129 | Definition only, without a contract: the exact wording of every notice, with `%s` and `%d` fields filled in, as at `votebot.py:139-243`. |
| Commands.HelpReply | votebot.py:221-232 | No arguments give the overview. Every reply that is notices has exactly one line. The only exceptions are the ValueError of `shlex` and the IndexError of a missing first token. |
| Commands.HelpOnWord | votebot.py:224-232 | Help on a word followed by further tokens, all written without escapes and joined by single spaces, gives that command's help text. A word that names no command gives "No such command.". Other arguments, such as `vote 'x` with its unclosed quote, are not covered: that one raises the ValueError (`HelpOnUnclosedQuote`). |
| Commands.HelpOnBlanks | votebot.py:227 | Help on blanks only raises the IndexError. |
| Commands.HelpOnUnclosedQuote | votebot.py:227 | Help on a line with an unclosed single quote raises the ValueError of `shlex`. |
| Bot.ReadBallot | votebot.py:133-148 | The checks before the poll lookup pass exactly when all of these hold: the source has a host, arguments were given, and they parse. The ballot then carries that host and the parsed ID and number. The refusals come in the source's order: no host raises the IndexError; then no arguments, too few words and a non-integer answer each get their own notice. |
| Bot.CountBallot | votebot.py:150-163 | A vote updates a poll exactly when the poll is open and CastVote accepts the vote, and the new state is CastVote's. The reply is one notice: "No such poll" for a poll that is not open, "already voted" for a host that has voted, "no such option" for a missing answer, and otherwise the answer with its new count. |
| Bot.VoteStep | votebot.py:133-163 | The only exception is the IndexError of a source without a host, and every other reply is one notice. A poll changes only when the arguments parse, the poll is open and CastVote accepts the vote of the source's host; its new state is then CastVote's. |
| Bot.ReadFullBallot | votebot.py:137-142 | A full vote line from `nick!user@host` is read as the ballot of `host` for that poll and answer number. |
| Bot.FirstVoteCounted | votebot.py:150-163 | A first vote in an open poll for one of its answers raises that answer's count by one, records the host and reports the new count. |
| Bot.VoteCommandCounts | votebot.py:133-163 | A `vote <id> <n>` from `nick!user@host` for an open poll, an existing answer and a new host reports the answer with its count raised by one. Only that answer changes, and the host is recorded. |
| Bot.VoteWithoutArguments | votebot.py:138-140 | A vote command without arguments gets the notice that asks for them and changes nothing. |
| Bot.VoteWithoutAnswer | votebot.py:141-145 | A vote command naming only a poll gets the "not enough arguments" notice and changes nothing. |
| Bot.VoteForNonInteger | votebot.py:146-148 | A vote command whose answer word is not an integer gets "Vote option must be an integer" and changes nothing. |
| Bot.VoteFromSourceWithoutHost | votebot.py:137 | A vote from a source without `!` raises the IndexError, whatever its arguments. |
| Bot.VoteForMissingPoll | votebot.py:150-152 | A vote for a poll that is not open gets "No such poll" with its ID and changes nothing. |
| Bot.VoteForMissingAnswer | votebot.py:154-158 | A first vote for an answer number the poll lacks gets "no such option" with the number and poll ID, and changes nothing. |
| Bot.RepeatVoteRefused | votebot.py:154-161 | After a recorded vote, a later vote in the same poll from a source with the same host is refused as already voted, whatever answer it names. It changes nothing. |
| Bot.DistinctPositions | votebot.py:242 | No poll ID occurs twice in the creation order. |
| Bot.CreateRequest | votebot.py:173-185 | No argument text is the ValueError. A request that parses names a poll that is not open, with an ID of at most 10 characters and at least one answer. Every failure is a ValueError or BadPollIDValue. |
| Bot.VoteBot.constructor | votebot.py:79-82 | A new bot has no polls and satisfies the registry invariant. |
| Bot.VoteBot.ListedPolls | votebot.py:242-243 | There is one listed line per poll. |
| Bot.VoteBot.ListShowsPoll | votebot.py:234-243 | With polls open, the list is the header followed by one line per poll. Line i + 1 names the i-th poll created, with its question. |
| Bot.VoteBot.ListedAt | votebot.py:242-243 | Listed line i names the i-th poll created. |
| Bot.VoteBot.OrderListsEachPollOnce | votebot.py:242 | The creation order names every open poll and no poll twice, so the list shows each poll exactly once. |
| Bot.VoteBot.DisplayPollInfo | votebot.py:205-219 | The lines sent are InfoOf: the header and the answer lines of an open poll, or "No such PollID". |
| Bot.VoteBot.HandlePollInfo | votebot.py:196-203 | The reply is PollInfoReply. No arguments gives its notice. Whitespace-only arguments raise the IndexError. Otherwise the poll named by the first word is displayed. |
| Bot.VoteBot.HandleList | votebot.py:234-243 | The reply is ListReply: "No open polls." or the header and every poll in creation order. |
| Bot.VoteBot.Store | votebot.py:192 | The poll is stored under its ID and appended to the creation order, keeping the registry invariant. |
| Bot.VoteBot.OpenPoll | votebot.py:187-194 | A new poll is stored under its ID, after every open poll. It has the request's question, the given creator and the opening state of the request's answers. Every other poll keeps its state. The reply is the creation notice followed by the poll's display. |
| Bot.VoteBot.HandleCreatePoll | votebot.py:165-194 | CreateDone: a request that parses adds exactly its poll at the end of the creation order. The poll is a new object, not one stored before. It has the request's question, the sender's nick as creator and the opening state of the answers. Every open poll stays in the registry as the same object with the same state, and the reply is the creation notice followed by the poll's display. Any other request changes nothing and gets one error notice: BadPollIDValue names the ID, and every ValueError gets the arguments notice. |
| Bot.VoteBot.CastBallot | votebot.py:150-163 | The reply and every poll's new state are those of CountBallot on the states before the call. |
| Bot.VoteBot.HandleVote | votebot.py:133-163 | VoteDone: the registry keeps the same polls. The reply and every poll's new state are those of VoteStep on the states before the command. |
| Bot.VoteBot.Answer | votebot.py:118-129 | The read-only commands (`pollinfo`, `list`, `help` and unknown words) change nothing and reply with QueryReply. |
| Bot.VoteBot.DoCommand | votebot.py:105-129 | Performed: the first word selects the handler, and the reply and new state are that handler's. An unknown word gets "Not understood: <word>" and changes nothing. The registry invariant is kept. Every poll object in the registry after the command is either one it held before or a new object. |
| Bot.VoteBot.OnPubmsg | votebot.py:98-103 | A message that is not `.nickname <command>` (in any ASCII case) changes nothing and gets no reply. Otherwise the stripped command is performed. Every poll object in the registry afterwards is either one it held before or a new object. |
| Bot.CommandLine | votebot.py:110-115 | A command word without spaces, then a space, then arguments, is split back into that word and those arguments. |
| Bot.CreateLineRequest | votebot.py:173-185 | On a bot with no polls, a create-poll line is the request for exactly its poll. The line holds an ID of at most 10 characters, a question and one or more answers, each written without escapes. |
| Bot.OpeningLines | votebot.py:205-219 | A poll in its opening state is shown after the creation notice as its header, then answer k with its text and count 0, in order. |
| Bot.FirstVoteAnswers | votebot.py:54-64 | After one vote for answer 1 of a new poll, answer 1 has count one and every other answer keeps its text, its number and count 0. |
| Bot.FirstVoteLines | votebot.py:205-219 | A poll after one vote for its first answer is shown as its header, then answer 1 with count one, then every other answer, in order, with count 0. |
| Bot.OpenedShows | votebot.py:187-194 | The reply of a creation is the creation notice followed by the new poll's display. That display shows every answer in order with no votes. |
| Bot.ShownAfterFirstVote | votebot.py:196-219 | `pollinfo` of a poll after one vote for its first answer shows answer 1 with count one, and every other answer, in order, with count 0. |
| Bot.CreateFirstPoll | votebot.py:165-194 | A `createpoll` on a bot with no polls, sent through `do_command`, leaves exactly one poll. That poll is a new object in its opening state, with the question and the answers of the line, and the reply shows it. |
| Bot.PerformedVote | votebot.py:122-123 | A command line that starts with `vote` does what `handleVote` does with the rest of the line. |
| Bot.VotedFirst | votebot.py:133-163 | A first vote for answer 1 of an open poll in its opening state keeps the same poll objects. It raises that answer's count to one and reports it. |
| Bot.VoteFirstAnswer | votebot.py:133-163 | `vote <id> 1` sent through `do_command` from a new host counts one vote for answer 1 and reports it. The registry keeps the same poll objects. |
| Bot.ShowFirstVote | votebot.py:196-219 | `pollinfo <id>` sent through `do_command` after that vote shows answer 1 with one vote and every other answer with none. |
| Bot.CreateVoteShow | votebot.py:105-129 | Three commands from `nick!user@host` on a new bot, each through `do_command`: `createpoll` of a poll, `vote` for its first answer, then `pollinfo`. The creation shows every answer with count 0, the vote reports answer 1 with count one, and the info shows answer 1 with one vote and the rest with none. |

## Left out

- IRC plumbing is not modelled: the connection, `on_nicknameinuse`, `on_welcome`, `on_join` and `on_privmsg`, and the server and port (`votebot.py:78-96`). The notice target is dropped too: a handler returns its notices in order instead of sending them.
- `main` and its restart loop are not modelled, because they are process setup and I/O.
- The `print` calls at `votebot.py:55` and `:264` are left out, because they are console output only.
- `Poll.addAnswer` and `Poll.closePoll` are empty stubs in the source and are not modelled.
- Concurrency is not modelled: commands are handled one at a time.
- The argument of `handleList` is unused in the source, so `HandleList` takes none.
- Shlex.Split: models POSIX `shlex.split` without comments. It does not model `shlex`'s other options, which the bot does not use.
- Numerals.ParseInt: accepts an optional sign and ASCII digits only. It does not accept surrounding whitespace (which `str.split()` has already removed), underscores between digits, or non-ASCII digits.
- PyText.Lower: folds ASCII letters only. Python's `lower()` also folds non-ASCII letters.
- `AnswerOption` is a value stored in a poll's answer map, not a separate object. The answer `voteForAnswer` returns is a snapshot, which is what `handleVote` prints at once.
- Commands.OptionLines: states only the number of lines. Their contents are stated by `OptionLinesInOrder`.
- Bot.VoteBot.ListedPolls: states only the number of lines. Their contents are stated by `ListedAt` and `ListShowsPoll`.
- Commands.HelpReply: states the no-argument reply, the one-line shape and the possible exceptions. The reply for a help word is stated by `HelpOnWord`, `HelpOnBlanks` and `HelpOnUnclosedQuote`.
- PyText.Words: its contract states only that every token is a word. Which tokens come out is stated by `WordsUnwords`, `WordsSkipSpace` and `WordsFirst`, which cover single and repeated separators, tabs and leading whitespace.
- Commands.Text: carries no contract. It is the wording of the notices, which the other members refer to by `Notice` value.
- `handleHelp` has no method of its own. It reads no state, so the dispatch uses `Commands.HelpReply` directly.
- An exception that escapes a handler is the reply `Raised(error)`. What the IRC library then does with it is not part of this model.

=== FILE: commands.dfy ===
/** The pure half of the bot: the argument parsers, the prefix and first-word
    split of a channel message, the voter's identity, and the text of every
    reply. */
module Commands {
  import opened Wrappers
  import opened PyText
  import opened Numerals
  import Shlex
  import opened BotErrors
  import opened Polls

  const CmdVote := "vote"
  const CmdCreatePoll := "createpoll"
  const CmdPollInfo := "pollinfo"
  const CmdList := "list"
  const CmdHelp := "help"

  /** What a handler does with the channel: the notices it sends, in order, or
      the exception that escapes it before it sends anything. */
  datatype Reply = Notices(lines: seq<Notice>) | Raised(error: BotError)

  /** The arguments of `createpoll`: poll ID, question, one or more answers. */
  datatype CreateArgs = CreateArgs(pollID: string, question: string, answers: seq<string>)

  /** The arguments of `vote`: poll ID and answer number. */
  datatype VoteArgs = VoteArgs(pollID: string, answerEnum: int)

  /** Python's `not cmdArgs`: no argument text at all, or an empty one. */
  predicate NoArgs(cmdArgs: Option<string>) {
    cmdArgs.None? || cmdArgs.value == []
  }

  /** `VoteBot.parseCreatePollArgs`: shell-style tokens; fewer than three is a
      ValueError, and so is input `shlex` cannot split; a poll ID longer than
      `Poll.pollIDMaxLen` or already open is BadPollIDValue. A result never
      names an open poll, so creating it never overwrites one. */
  function ParseCreatePollArgs(cmdArgs: string, openPolls: set<string>): (r: Result<CreateArgs, BotError>)
    ensures r.Success? ==> |r.value.pollID| <= PollIDMaxLen && r.value.pollID !in openPolls && r.value.answers != []
    ensures r.Failure? ==> r.error.IsValueError() || r.error.BadPollIDValue?
  {
    match Shlex.Split(cmdArgs)
    case Failure(e) => Failure(Unsplittable(e))
    case Success(tokens) =>
      if |tokens| < 3 then Failure(NotEnoughArguments)
      else
        var pollID := tokens[0];
        if |pollID| > PollIDMaxLen || pollID in openPolls then Failure(BadPollIDValue(pollID))
        else Success(CreateArgs(pollID, tokens[1], tokens[2..]))
  }

  /** Arguments written as a shell line are parsed back into poll ID,
      question and answers, unless the ID is too long or taken. */
  lemma CreatePollArgsRoundTrip(id: Shlex.Written, question: Shlex.Written, answers: seq<Shlex.Written>, openPolls: set<string>)
    requires Shlex.Writable(id) && Shlex.Writable(question)
    requires answers != [] && forall a | a in answers :: Shlex.Writable(a)
    ensures ParseCreatePollArgs(Shlex.Line([id, question] + answers), openPolls)
         == if |id.text| > PollIDMaxLen || id.text in openPolls then Failure(BadPollIDValue(id.text))
            else Success(CreateArgs(id.text, question.text, Shlex.Texts(answers)))
  {
    var ws := [id, question] + answers;
    assert forall w | w in ws :: Shlex.Writable(w);
    Shlex.SplitLine(ws);
    assert Shlex.Texts(ws)[2..] == Shlex.Texts(answers);
  }

  /** Fewer than three tokens is the ValueError. */
  lemma CreatePollArgsTooFew(ws: seq<Shlex.Written>, openPolls: set<string>)
    requires |ws| < 3 && forall w | w in ws :: Shlex.Writable(w)
    ensures ParseCreatePollArgs(Shlex.Line(ws), openPolls) == Failure(NotEnoughArguments)
  {
    Shlex.SplitLine(ws);
  }

  /** A line that opens a single quote and never closes it is the
      ValueError of `shlex`, whatever tokens come before the quote. */
  lemma CreatePollArgsUnclosedQuote(ws: seq<Shlex.Written>, t: string, openPolls: set<string>)
    requires forall w | w in ws :: Shlex.Writable(w)
    requires '\'' !in t
    ensures ParseCreatePollArgs(Shlex.Line(ws) + " '" + t, openPolls) == Failure(Unsplittable(Shlex.NoClosingQuotation))
  {
    Shlex.UnclosedQuote(ws, t);
  }

  /** An unclosed double quote is refused the same way. */
  lemma CreatePollArgsUnclosedDoubleQuote(ws: seq<Shlex.Written>, t: string, openPolls: set<string>)
    requires forall w | w in ws :: Shlex.Writable(w)
    requires '"' !in t && '\\' !in t
    ensures ParseCreatePollArgs(Shlex.Line(ws) + " \"" + t, openPolls) == Failure(Unsplittable(Shlex.NoClosingQuotation))
  {
    Shlex.UnclosedDoubleQuote(ws, t);
  }

  /** The example of the `createpoll` help text cannot be parsed: its
      apostrophe leaves a single quote open. */
  lemma HelpExampleRefused(openPolls: set<string>)
    ensures ParseCreatePollArgs(Shlex.HelpExampleArgs, openPolls) == Failure(Unsplittable(Shlex.NoClosingQuotation))
  {
    Shlex.HelpExampleUnclosed();
  }

  /** `VoteBot.parseVoteArgs`: whitespace-separated tokens; fewer than two is a
      ValueError, a second token that is not an integer is BadVoteOption;
      further tokens are ignored. */
  function ParseVoteArgs(voteArgs: string): (r: Result<VoteArgs, BotError>)
    ensures r.Failure? ==> r.error == NotEnoughArguments || r.error == BadVoteOption
    ensures r.Success? ==> IsWord(r.value.pollID)
  {
    var tokens := Words(voteArgs);
    if |tokens| < 2 then Failure(NotEnoughArguments)
    else
      assert tokens[0] in tokens;
      match ParseInt(tokens[1])
      case None => Failure(BadVoteOption)
      case Some(n) => Success(VoteArgs(tokens[0], n))
  }

  /** A poll ID, a rendered integer and any further words give that ID and
      that integer back. */
  lemma VoteArgsRoundTrip(pollID: string, n: int, extra: seq<string>)
    requires IsWord(pollID) && forall w | w in extra :: IsWord(w)
    ensures ParseVoteArgs(Unwords([pollID, IntToDecimal(n)] + extra)) == Success(VoteArgs(pollID, n))
  {
    var ws := [pollID, IntToDecimal(n)] + extra;
    var digits := IntToDecimal(n);
    assert IsWord(digits) by {
      forall c | c in digits ensures !IsSpace(c) {
        var i :| 0 <= i < |digits| && digits[i] == c;
        if i > 0 { assert digits[1..][i - 1] == c; }
      }
    }
    assert forall w | w in ws :: IsWord(w);
    WordsUnwords(ws);
    ParseIntRoundTrip(n);
  }

  /** Fewer than two words is the ValueError. */
  lemma VoteArgsTooFew(ws: seq<string>)
    requires |ws| < 2 && forall w | w in ws :: IsWord(w)
    ensures ParseVoteArgs(Unwords(ws)) == Failure(NotEnoughArguments)
  {
    WordsUnwords(ws);
  }

  /** A word that is not an integer in the second place is BadVoteOption. */
  lemma VoteArgsNotInteger(ws: seq<string>)
    requires |ws| >= 2 && forall w | w in ws :: IsWord(w)
    requires ParseInt(ws[1]).None?
    ensures ParseVoteArgs(Unwords(ws)) == Failure(BadVoteOption)
  {
    WordsUnwords(ws);
  }

  /** `on_pubmsg`: a message addressed to the bot is `.nickname` (in any ASCII
      case), a space, then the command; the command is passed on stripped. */
  function CommandInput(text: string, nickname: string): (r: Option<string>)
    ensures ' ' !in text ==> r == None
    ensures r.Some? ==> r.value == [] || (!IsSpace(r.value[0]) && !IsSpace(r.value[|r.value| - 1]))
  {
    var (prefix, rest) := SplitOnce(text, ' ');
    if rest.Some? && Lower(prefix) == Lower("." + nickname) then Some(Strip(rest.value))
    else None
  }

  /** A message whose first word is `.nickname` in any ASCII case reaches
      the command handler with the rest of the message stripped; a command
      typed without surrounding whitespace arrives as typed. */
  lemma AddressedCommand(prefix: string, nickname: string, rest: string)
    requires ' ' !in prefix && Lower(prefix) == Lower("." + nickname)
    ensures CommandInput(prefix + " " + rest, nickname) == Some(Strip(rest))
    ensures (rest == [] || (!IsSpace(rest[0]) && !IsSpace(rest[|rest| - 1])))
            ==> CommandInput(prefix + " " + rest, nickname) == Some(rest)
  {
    assert prefix + " " + rest == prefix + [' '] + rest;
    SplitOnceAt(prefix, ' ', rest);
    if rest == [] || (!IsSpace(rest[0]) && !IsSpace(rest[|rest| - 1])) {
      assert StripLeft(rest) == rest;
      assert StripRight(rest) == rest;
    }
  }

  /** A message whose first word is anything else is ignored. */
  lemma UnaddressedPrefix(prefix: string, nickname: string, rest: string)
    requires ' ' !in prefix && Lower(prefix) != Lower("." + nickname)
    ensures CommandInput(prefix + " " + rest, nickname) == None
  {
    assert prefix + " " + rest == prefix + [' '] + rest;
    SplitOnceAt(prefix, ' ', rest);
  }

  /** `do_command`: the first word and, after the first space, the rest. */
  function SplitCommand(cmdInput: string): (r: (string, Option<string>))
    ensures ' ' !in r.0
    ensures r.1.None? <==> ' ' !in cmdInput
    ensures r.1.None? ==> r.0 == cmdInput
    ensures r.1.Some? ==> cmdInput == r.0 + " " + r.1.value
  {
    SplitOnce(cmdInput, ' ')
  }

  /** The dispatch of `do_command` on the first word. */
  datatype Command = CreatePoll | PollInfo | Vote | List | Help | NotUnderstood(word: string)

  function Route(cmd: string): (r: Command)
    ensures r == CreatePoll <==> cmd == CmdCreatePoll
    ensures r == PollInfo <==> cmd == CmdPollInfo
    ensures r == Vote <==> cmd == CmdVote
    ensures r == List <==> cmd == CmdList
    ensures r == Help <==> cmd == CmdHelp
    ensures r.NotUnderstood? ==> r.word == cmd
  {
    if cmd == CmdCreatePoll then CreatePoll
    else if cmd == CmdPollInfo then PollInfo
    else if cmd == CmdVote then Vote
    else if cmd == CmdList then List
    else if cmd == CmdHelp then Help
    else NotUnderstood(cmd)
  }

  /** The voter's identity: the host in a `nick!user@host` source. A source
      without `!`, or without `@` after it, is the IndexError. */
  function VoterHost(source: string): (r: Option<string>)
    ensures '!' !in source ==> r == None
    ensures r.Some? ==> exists k | 0 < k <= |source| :: source[k - 1] == '@' && r.value == source[k..]
  {
    var (_, afterBang) := SplitOnce(source, '!');
    if afterBang.None? then None
    else
      var (before, afterAt) := SplitOnce(afterBang.value, '@');
      if afterAt.Some? then
        assert source[|source| - |afterAt.value|..] == afterAt.value;
        afterAt
      else afterAt
  }

  /** The poll creator: the nick before the `!` of the source. */
  function Nick(source: string): (r: string)
    ensures '!' !in r
    ensures r == source || (|r| < |source| && source[..|r| + 1] == r + "!")
  {
    SplitOnce(source, '!').0
  }

  /** The host part of a full `nick!user@host` mask is its voter identity. */
  lemma VoterHostOfMask(nick: string, user: string, host: string)
    requires '!' !in nick && '@' !in user
    ensures VoterHost(nick + "!" + user + "@" + host) == Some(host)
    ensures Nick(nick + "!" + user + "@" + host) == nick
  {
    var source := nick + "!" + user + "@" + host;
    SplitOnceAt(nick, '!', user + "@" + host);
    assert source == nick + ['!'] + (user + "@" + host);
    SplitOnceAt(user, '@', host);
    assert user + "@" + host == user + ['@'] + host;
  }

  /** One notice the bot sends, by the message it carries; `Text` gives its
      exact wording. */
  datatype Notice =
    | NoVoteArgs
    | FewVoteArgs
    | VoteNotInteger
    | NoSuchPoll(pollID: string)
    | NoSuchOption(answerEnum: int, pollID: string)
    | AlreadyVoted(source: string)
    | VoteCounted(answerEnum: int, option: AnswerOption)
    | CreateArgsError
    | InvalidPollID(pollID: string)
    | PollCreated(pollID: string)
    | NoPollInfoArgs
    | NoSuchPollID(pollID: string)
    | PollHeader(pollID: string, question: string)
    | OptionStats(enum: int, option: AnswerOption)
    | NoOpenPolls
    | OpenPollsHeader
    | PollListed(pollID: string, question: string)
    | HelpOverview
    | HelpText(topic: Command)
    | UnknownCommand(cmd: string)

  /** The wording of each notice, with the `%s` and `%d` fields filled in. */
  function Text(notice: Notice): string {
    match notice
    case NoVoteArgs => "No arguments supplied for vote cmd. Should <pollid> <answerNumber>"
    case FewVoteArgs => "Not enough arguments supplied for vote cmd. Should be <pollid> <answerNumber>"
    case VoteNotInteger => "Vote option must be an integer"
    case NoSuchPoll(pollID) => "No such poll: " + pollID
    case NoSuchOption(answerEnum, pollID) =>
      "no such option " + IntToDecimal(answerEnum) + " for poll " + pollID
    case AlreadyVoted(source) => "user " + source + ", you have already voted in this poll."
    case VoteCounted(answerEnum, option) =>
      "Successful Vote. Option " + IntToDecimal(answerEnum) + ": '" + option.answer
      + "' now has " + IntToDecimal(option.count) + " votes."
    case CreateArgsError =>
      "Not enough arguments supplied for createpoll cmd. Needs at least one answer supplied."
      + "multi-word answers/questions must be in quotes"
      + "Ex: .votebot createpoll bore 'who is?' ann? 'could it be me?'"
    case InvalidPollID(pollID) =>
      "Invalid Poll ID " + pollID + ". Must be " + IntToDecimal(PollIDMaxLen)
      + " chars or fewer and not already in use"
    case PollCreated(pollID) => "I created a poll with ID " + pollID
    case NoPollInfoArgs => "No arguments supplied for pollinfo cmd. Need a pollID"
    case NoSuchPollID(pollID) => "No such PollID " + pollID
    case PollHeader(pollID, question) => "Poll ID: " + pollID + " - '" + question + "'. Options: "
    case OptionStats(enum, option) =>
      " - " + IntToDecimal(enum) + ": '" + option.answer + "', " + IntToDecimal(option.count) + " votes"
    case NoOpenPolls => "No open polls."
    case OpenPollsHeader => "Open Polls:"
    case PollListed(pollID, question) => "PollID " + pollID + ": '" + question + "',"
    case HelpOverview =>
      "PollBot here! Commands are list, createpoll, vote, and pollinfo. "
      + "Do .votebot help <command> for more info."
    case HelpText(topic) => HelpString(topic)
    case UnknownCommand(cmd) => "Not understood: " + cmd
  }

  /** The answer lines of a poll with answers 1..n. */
  function OptionLines(answers: map<int, AnswerOption>, n: nat): (r: seq<Notice>)
    requires forall k | 1 <= k <= n :: k in answers
    ensures |r| == n
  {
    if n == 0 then [] else OptionLines(answers, n - 1) + [OptionStats(n, answers[n])]
  }

  /** Answer k is shown on line k, in ascending order of number, with its
      text and count. */
  lemma {:induction false} OptionLinesInOrder(answers: map<int, AnswerOption>, n: nat)
    requires forall k | 1 <= k <= n :: k in answers
    ensures forall k | 1 <= k <= n :: OptionLines(answers, n)[k - 1] == OptionStats(k, answers[k])
  {
    if n > 0 {
      OptionLinesInOrder(answers, n - 1);
    }
  }

  /** The loop of `displayPollInfo`: the answers in ascending order of their
      numbers, which are 1..n. */
  method ShowOptions(answers: map<int, AnswerOption>, ghost n: nat) returns (lines: seq<Notice>)
    requires HasIndices(answers, n)
    ensures lines == OptionLines(answers, n)
  {
    lines := [];
    var enum := 1;
    while enum in answers
      invariant 1 <= enum <= n + 1
      invariant lines == OptionLines(answers, enum - 1)
      decreases n + 1 - enum
    {
      lines := lines + [OptionStats(enum, answers[enum])];
      enum := enum + 1;
    }
  }

  /** What `displayPollInfo` sends for an existing poll: the header, then one
      line per answer. */
  function InfoLines(pollID: string, question: string, answers: map<int, AnswerOption>, n: nat): seq<Notice>
    requires forall k | 1 <= k <= n :: k in answers
  {
    [PollHeader(pollID, question)] + OptionLines(answers, n)
  }

  /** The display of a poll is its header, then answer k with its text and
      count on line k, one line per answer. */
  lemma InfoLinesInOrder(pollID: string, question: string, answers: map<int, AnswerOption>, n: nat)
    requires forall k | 1 <= k <= n :: k in answers
    ensures |InfoLines(pollID, question, answers, n)| == n + 1
    ensures InfoLines(pollID, question, answers, n)[0] == PollHeader(pollID, question)
    ensures forall k | 1 <= k <= n :: InfoLines(pollID, question, answers, n)[k] == OptionStats(k, answers[k])
  {
    OptionLinesInOrder(answers, n);
  }

  /** The help text of each command; a word that names no command has none,
      and asking for it gives "No such command.". */
  function HelpString(topic: Command): string {
    match topic
    case Help => "Help is a help command that helps get you help :)."
    case CreatePoll =>
      "Creates a poll. args format: <pollID> <question> <answers>(1+) "
      + "PollID is a shortkey to your poll. Make it easy to type. Multiword questions and "
      + "answers must be quoted. Ex: createpoll pets 'who's better?' dogs cats 'cat dogs'"
    case PollInfo => "Print the stats of an existing poll. args format: <pollID>. Ex: pollinfo pets"
    case Vote => "Vote in a poll. Args format: <pollID> <answernumber>. Ex: vote pets 1"
    case List => "List existing polls by pollID and question. No args."
    case NotUnderstood(_) => "No such command."
  }

  /** `handleHelp`: the overview without arguments, otherwise the help of the
      first shell token, or "No such command.". */
  function HelpReply(cmdArgs: Option<string>): (r: Reply)
    ensures NoArgs(cmdArgs) ==> r == Notices([HelpOverview])
    ensures r.Notices? ==> |r.lines| == 1
    ensures r.Raised? ==> r.error.IsValueError() || r.error == IndexOutOfRange
  {
    if NoArgs(cmdArgs) then Notices([HelpOverview])
    else
      match Shlex.Split(cmdArgs.value)
      case Failure(e) => Raised(Unsplittable(e))
      case Success(tokens) =>
        if tokens == [] then Raised(IndexOutOfRange)
        else Notices([HelpText(Route(tokens[0]))])
  }

  /** Asking for help on a command word, possibly followed by more words,
      gives that command's help text, or "No such command." for any other
      word. */
  lemma HelpOnWord(topic: Shlex.Written, more: seq<Shlex.Written>)
    requires Shlex.Writable(topic) && forall w | w in more :: Shlex.Writable(w)
    ensures HelpReply(Some(Shlex.Line([topic] + more)))
         == Notices([HelpText(Route(topic.text))])
  {
    var ws := [topic] + more;
    assert forall w | w in ws :: Shlex.Writable(w);
    Shlex.SplitLine(ws);
    assert Shlex.Line(ws) != [] by {
      assert |Shlex.Render(topic)| > 0;
      assert ws[0] == topic;
    }
  }

  /** Help on blanks only has no first token: the IndexError. */
  lemma HelpOnBlanks(blanks: string)
    requires blanks != [] && forall c | c in blanks :: Shlex.IsBlank(c)
    ensures HelpReply(Some(blanks)) == Raised(IndexOutOfRange)
  {
  }

  /** Help on a line with an unclosed single quote is the ValueError of
      `shlex`, which escapes the handler. */
  lemma HelpOnUnclosedQuote(ws: seq<Shlex.Written>, t: string)
    requires forall w | w in ws :: Shlex.Writable(w)
    requires '\'' !in t
    ensures HelpReply(Some(Shlex.Line(ws) + " '" + t)) == Raised(Unsplittable(Shlex.NoClosingQuotation))
  {
    Shlex.UnclosedQuote(ws, t);
  }
}

=== FILE: errors.dfy ===
/** The exceptions the bot raises and catches, as one datatype. */
module BotErrors {
  import Shlex

  datatype BotError =
    /** No such vote option in a poll, or a vote token that is not an integer. */
    | BadVoteOption
    /** A poll ID that is too long or already in use; carries the ID. */
    | BadPollIDValue(pollID: string)
    /** The voter's host has already voted in this poll. */
    | HostAlreadyVoted
    /** The ValueError a parser raises when there are too few arguments. */
    | NotEnoughArguments
    /** The ValueError `shlex.split` raises on unbalanced input. */
    | Unsplittable(reason: Shlex.ShlexError)
    /** The IndexError of indexing past the end of a split result. */
    | IndexOutOfRange
  {
    /** The errors that are Python ValueErrors. */
    predicate IsValueError() {
      NotEnoughArguments? || Unsplittable?
    }
  }
}

=== FILE: numerals.dfy ===
/** Decimal integers: Python's `int(token)` on a vote token and the `%d` / `%s`
    rendering of an integer in a reply. */
module Numerals {
  import opened Wrappers

  predicate IsDigit(c: char) {
    '0' <= c <= '9'
  }

  predicate AllDigits(s: string) {
    forall c | c in s :: IsDigit(c)
  }

  function DigitValue(c: char): nat
    requires IsDigit(c)
  {
    c as int - '0' as int
  }

  function DigitChar(d: nat): (c: char)
    requires d < 10
    ensures IsDigit(c) && DigitValue(c) == d
  {
    ('0' as int + d) as char
  }

  /** The value of a string of decimal digits, most significant first. */
  function DecimalValue(s: string): nat
    requires AllDigits(s)
  {
    if s == [] then 0
    else DecimalValue(s[..|s| - 1]) * 10 + DigitValue(s[|s| - 1])
  }

  /** `str(n)` for a natural number: its shortest decimal digits. */
  function NatToDecimal(n: nat): (r: string)
    ensures r != [] && AllDigits(r)
  {
    if n < 10 then [DigitChar(n)]
    else NatToDecimal(n / 10) + [DigitChar(n % 10)]
  }

  /** `"%d" % n` (and `"%s" % n`): a minus sign for negative numbers. */
  function IntToDecimal(n: int): (r: string)
    ensures r != [] && (r[0] == '-' || IsDigit(r[0])) && AllDigits(r[1..])
  {
    if n < 0 then "-" + NatToDecimal(-n) else NatToDecimal(n)
  }

  /** `int(s)` on a token without whitespace: an optional sign followed by at
      least one ASCII digit; anything else is Python's ValueError, here None. */
  function ParseInt(s: string): (r: Option<int>)
    ensures r.Some? <==> s != [] && AllDigits(s[1..])
                         && (IsDigit(s[0]) || ((s[0] == '-' || s[0] == '+') && |s| >= 2))
    ensures r.Some? ==> IsDigit(s[|s| - 1])
    ensures r.Some? && r.value < 0 ==> s[0] == '-'
  {
    var negative := s != [] && s[0] == '-';
    var digits := if s != [] && (s[0] == '-' || s[0] == '+') then s[1..] else s;
    if digits == [] || !AllDigits(digits) then None
    else
      var value: int := DecimalValue(digits);
      Some(if negative then -value else value)
  }

  /** An optional sign and at least one digit read as the signed value of
      the digits: `"+5"` is 5, `"007"` is 7 and `"-0"` is 0. */
  lemma ParseSigned(sign: string, digits: string)
    requires |sign| <= 1 && forall c | c in sign :: c == '-' || c == '+'
    requires digits != [] && AllDigits(digits)
    ensures ParseInt(sign + digits)
            == Some(if '-' in sign then -(DecimalValue(digits) as int) else DecimalValue(digits))
  {
    var s := sign + digits;
    if sign == [] {
      assert s == digits;
      assert s[0] in digits;
    } else {
      assert sign[0] in sign;
      assert s[0] == sign[0] && s[1..] == digits;
    }
  }

  lemma {:induction false} DecimalRoundTrip(n: nat)
    ensures DecimalValue(NatToDecimal(n)) == n
  {
    var r := NatToDecimal(n);
    if n >= 10 {
      DecimalRoundTrip(n / 10);
      assert r[..|r| - 1] == NatToDecimal(n / 10);
    }
  }

  /** Reading back the rendering of any integer yields that integer. */
  lemma ParseIntRoundTrip(n: int)
    ensures ParseInt(IntToDecimal(n)) == Some(n)
  {
    if n < 0 {
      assert "-" == ['-'];
      ParseSigned("-", NatToDecimal(-n));
      DecimalRoundTrip(-n);
    } else {
      ParseSigned([], NatToDecimal(n));
      assert [] + NatToDecimal(n) == NatToDecimal(n);
      DecimalRoundTrip(n);
    }
  }
}

=== FILE: polls.dfy ===
/** A poll: its numbered answer options, their vote counts and the hosts that
    have voted. `PollState` and `CastVote` give the value-level meaning of a
    vote; the class `Poll` holds the state the bot updates in place. */
module Polls {
  import opened Wrappers
  import opened BotErrors

  /** `Poll.pollIDMaxLen`: the longest poll ID accepted. */
  const PollIDMaxLen: nat := 10

  /** One answer of a poll: its text, its 1-based number and its vote count. */
  datatype AnswerOption = AnswerOption(answer: string, enumeration: int, count: nat)

  /** What a vote reads and changes: the answers by number and the voted hosts. */
  datatype PollState = PollState(answers: map<int, AnswerOption>, votedHosts: set<string>)

  /** The result of one vote: the updated answer and the new state, or the
      error raised (which leaves the state as it was). */
  datatype VoteOutcome = Voted(option: AnswerOption, next: PollState) | Rejected(error: BotError)

  /** The answer numbers are exactly 1..n. */
  predicate HasIndices(answers: map<int, AnswerOption>, n: nat) {
    && (forall k | k in answers :: 1 <= k <= n)
    && (forall k | 1 <= k <= n :: k in answers)
  }

  /** The sum of the counts of answers 1..n. */
  function Tally(answers: map<int, AnswerOption>, n: nat): nat
    requires forall k | 1 <= k <= n :: k in answers
  {
    if n == 0 then 0 else Tally(answers, n - 1) + answers[n].count
  }

  /** The invariant of a poll with n answers: the answers are numbered 1..n,
      each carries its own number, and the counts add up to the number of
      hosts that have voted (every vote came from a distinct host). */
  predicate WellFormed(s: PollState, n: nat) {
    && HasIndices(s.answers, n)
    && (forall k | k in s.answers :: s.answers[k].enumeration == k)
    && Tally(s.answers, n) == |s.votedHosts|
  }

  /** The answers of a new poll, numbered from 1 in the order given, with no
      votes (`enumerate(answers, start=1)`). */
  function Numbered(texts: seq<string>): map<int, AnswerOption> {
    if texts == [] then map[]
    else Numbered(texts[..|texts| - 1])[|texts| := AnswerOption(texts[|texts| - 1], |texts|, 0)]
  }

  /** The state of a new poll: its numbered answers, and nobody has voted. */
  function Opening(texts: seq<string>): PollState {
    PollState(Numbered(texts), {})
  }

  /** `Poll.voteForAnswer` on values. The host check comes first, so a host
      that has voted is refused whatever the answer number; a new host naming
      a missing answer is refused next; otherwise exactly the chosen count
      goes up by one and the host is recorded. */
  function CastVote(s: PollState, answerEnum: int, voterHost: string): (r: VoteOutcome)
    ensures r.Voted? <==> voterHost !in s.votedHosts && answerEnum in s.answers
    ensures r.Rejected? ==> r.error == (if voterHost in s.votedHosts then HostAlreadyVoted else BadVoteOption)
    ensures r.Voted? ==>
      && r.next.votedHosts == s.votedHosts + {voterHost}
      && r.next.answers.Keys == s.answers.Keys
      && r.option == r.next.answers[answerEnum]
      && r.option.answer == s.answers[answerEnum].answer
      && r.option.enumeration == s.answers[answerEnum].enumeration
      && r.option.count == s.answers[answerEnum].count + 1
      && forall k | k in s.answers && k != answerEnum :: r.next.answers[k] == s.answers[k]
  {
    if voterHost in s.votedHosts then Rejected(HostAlreadyVoted)
    else if answerEnum !in s.answers then Rejected(BadVoteOption)
    else
      var chosen := s.answers[answerEnum];
      var updated := chosen.(count := chosen.count + 1);
      Voted(updated, PollState(s.answers[answerEnum := updated], s.votedHosts + {voterHost}))
  }

  /** Replacing answer k changes the tally by the difference of the counts. */
  lemma {:induction false} TallyUpdate(answers: map<int, AnswerOption>, n: nat, k: int, a: AnswerOption)
    requires forall i | 1 <= i <= n :: i in answers
    requires 1 <= k <= n
    ensures Tally(answers[k := a], n) == Tally(answers, n) - answers[k].count + a.count
  {
    if n != k {
      TallyUpdate(answers, n - 1, k, a);
    } else if n > 1 {
      TallyUnchanged(answers, answers[k := a], n - 1);
    }
  }

  /** The tally of 1..n only reads answers 1..n. */
  lemma {:induction false} TallyUnchanged(answers: map<int, AnswerOption>, other: map<int, AnswerOption>, n: nat)
    requires forall i | 1 <= i <= n :: i in answers && i in other && answers[i].count == other[i].count
    ensures Tally(answers, n) == Tally(other, n)
  {
    if n > 0 {
      TallyUnchanged(answers, other, n - 1);
    }
  }

  /** Answers that all have no votes tally to zero. */
  lemma {:induction false} TallyZero(answers: map<int, AnswerOption>, n: nat)
    requires forall i | 1 <= i <= n :: i in answers && answers[i].count == 0
    ensures Tally(answers, n) == 0
  {
    if n > 0 {
      TallyZero(answers, n - 1);
    }
  }

  /** Answer k of a new poll is `texts[k - 1]`, numbered k, with no votes;
      there are no other answers. */
  lemma {:induction false} NumberedAnswers(texts: seq<string>)
    ensures HasIndices(Numbered(texts), |texts|)
    ensures forall k | 1 <= k <= |texts| :: Numbered(texts)[k] == AnswerOption(texts[k - 1], k, 0)
  {
    if texts != [] {
      var init := texts[..|texts| - 1];
      NumberedAnswers(init);
      assert forall i | 0 <= i < |init| :: init[i] == texts[i];
    }
  }

  /** A new poll numbers its answers 1..n in the order given, every count is
      zero, nobody has voted, and the poll invariant holds. */
  lemma OpeningWellFormed(texts: seq<string>)
    ensures var s := Opening(texts);
      && HasIndices(s.answers, |texts|)
      && (forall k | 1 <= k <= |texts| :: s.answers[k].answer == texts[k - 1] && s.answers[k].count == 0)
      && s.votedHosts == {}
      && WellFormed(s, |texts|)
  {
    NumberedAnswers(texts);
    TallyZero(Opening(texts).answers, |texts|);
  }

  /** A successful vote keeps the poll invariant: the tally and the number of
      voted hosts both grow by one. */
  lemma CastVoteKeepsWellFormed(s: PollState, n: nat, answerEnum: int, voterHost: string)
    requires WellFormed(s, n)
    requires CastVote(s, answerEnum, voterHost).Voted?
    ensures WellFormed(CastVote(s, answerEnum, voterHost).next, n)
  {
    var r := CastVote(s, answerEnum, voterHost);
    TallyUpdate(s.answers, n, answerEnum, r.option);
    assert r.next.answers == s.answers[answerEnum := r.option];
  }

  /** One vote per host: after a successful vote, every further vote by the
      same host is refused with HostAlreadyVoted and changes nothing. */
  lemma SecondVoteRejected(s: PollState, first: int, second: int, voterHost: string)
    requires CastVote(s, first, voterHost).Voted?
    ensures CastVote(CastVote(s, first, voterHost).next, second, voterHost) == Rejected(HostAlreadyVoted)
  {
  }

  /** Counts never go down: after any vote, every answer has at least its
      old count, and the tally goes up by exactly one or not at all. */
  lemma CastVoteMonotone(s: PollState, n: nat, answerEnum: int, voterHost: string)
    requires WellFormed(s, n)
    ensures var r := CastVote(s, answerEnum, voterHost);
      var after := if r.Voted? then r.next else s;
      && (forall k | k in s.answers :: k in after.answers && after.answers[k].count >= s.answers[k].count)
      && Tally(after.answers, n) == Tally(s.answers, n) + (if r.Voted? then 1 else 0)
  {
    var r := CastVote(s, answerEnum, voterHost);
    if r.Voted? {
      CastVoteKeepsWellFormed(s, n, answerEnum, voterHost);
    }
  }

  /** A poll opened with the answers "dogs" and "cats" that gets one vote
      for answer 1 then shows answer 1 with one vote and answer 2 with none;
      the same host cannot vote again. */
  lemma DogsAndCats(host: string, again: int)
    ensures var r := CastVote(Opening(["dogs", "cats"]), 1, host);
      && r.Voted?
      && r.option == AnswerOption("dogs", 1, 1)
      && r.next.answers == map[1 := AnswerOption("dogs", 1, 1), 2 := AnswerOption("cats", 2, 0)]
      && CastVote(r.next, again, host) == Rejected(HostAlreadyVoted)
  {
    NumberedAnswers(["dogs", "cats"]);
  }

  /** A poll as the bot keeps it. */
  class Poll {
    const question: string
    const pollID: string
    const creator: string
    /** Hosts that have voted in this poll. */
    var alreadyVotedHosts: set<string>
    /** Answer options by their number. */
    var answers: map<int, AnswerOption>
    /** The number of answers the poll was created with. */
    ghost const optionCount: nat

    function State(): PollState
      reads this
    {
      PollState(answers, alreadyVotedHosts)
    }

    ghost predicate Valid()
      reads this
    {
      WellFormed(State(), optionCount)
    }

    /** `Poll.__init__`: numbers the answers 1..n in the order given. */
    constructor (question: string, pollID: string, creator: string, texts: seq<string>)
      ensures Valid() && optionCount == |texts|
      ensures this.question == question && this.pollID == pollID && this.creator == creator
      ensures State() == Opening(texts)
    {
      this.question := question;
      this.pollID := pollID;
      this.creator := creator;
      alreadyVotedHosts := {};
      optionCount := |texts|;
      var numbered: map<int, AnswerOption> := map[];
      for num := 1 to |texts| + 1
        invariant numbered == Numbered(texts[..num - 1])
      {
        assert texts[..num][..num - 1] == texts[..num - 1];
        numbered := numbered[num := AnswerOption(texts[num - 1], num, 0)];
      }
      assert texts[..|texts|] == texts;
      OpeningWellFormed(texts);
      answers := numbered;
    }

    /** `Poll.voteForAnswer`: refuses a host that has voted, then a missing
        answer number, changing nothing; otherwise records the vote and
        returns the updated answer. */
    method VoteForAnswer(answerEnum: int, voterHost: string) returns (r: Result<AnswerOption, BotError>)
      requires Valid()
      modifies this
      ensures Valid()
      ensures match CastVote(old(State()), answerEnum, voterHost)
        case Voted(option, next) => r == Success(option) && State() == next
        case Rejected(error) => r == Failure(error) && State() == old(State())
    {
      if voterHost in alreadyVotedHosts {
        return Failure(HostAlreadyVoted);
      }
      if answerEnum !in answers {
        return Failure(BadVoteOption);
      }
      CastVoteKeepsWellFormed(State(), optionCount, answerEnum, voterHost);
      var answer := answers[answerEnum];
      answer := answer.(count := answer.count + 1);
      answers := answers[answerEnum := answer];
      alreadyVotedHosts := alreadyVotedHosts + {voterHost};
      return Success(answer);
    }
  }
}

=== FILE: pytext.dfy ===
/** The few operations on Python `str` that the bot relies on:
    `str.split()` (split on runs of whitespace), `str.split(sep, 1)`,
    `str.strip()` and an ASCII `str.lower()`. */
module PyText {
  import opened Wrappers

  /** Python's `str.isspace()` for one character: the characters that
      `str.split()` and `str.strip()` treat as whitespace. */
  predicate IsSpace(c: char) {
    || c == ' '
    || ('\t' <= c <= '\r')
    || ('\U{1C}' <= c <= '\U{1F}')
    || c == '\U{85}' || c == '\U{A0}' || c == '\U{1680}'
    || ('\U{2000}' <= c <= '\U{200A}')
    || c == '\U{2028}' || c == '\U{2029}' || c == '\U{202F}' || c == '\U{205F}' || c == '\U{3000}'
  }

  /** A word as `str.split()` produces it: non-empty, no whitespace inside. */
  predicate IsWord(w: string) {
    w != [] && forall c | c in w :: !IsSpace(c)
  }

  function Flush(pending: string): seq<string> {
    if pending == [] then [] else [pending]
  }

  /** `s.split()`: the maximal runs of non-whitespace characters of `s`, in order. */
  function Words(s: string): (r: seq<string>)
    ensures forall w | w in r :: IsWord(w)
  {
    WordsFrom(s, [])
  }

  /** Scans `s` while `pending` holds the characters of the word begun so far. */
  function WordsFrom(s: string, pending: string): (r: seq<string>)
    requires forall c | c in pending :: !IsSpace(c)
    ensures forall w | w in r :: IsWord(w)
    decreases |s|
  {
    if s == [] then Flush(pending)
    else if IsSpace(s[0]) then Flush(pending) + WordsFrom(s[1..], [])
    else WordsFrom(s[1..], pending + [s[0]])
  }

  /** `" ".join(ws)`: not called by the bot; it writes the argument text
      that the round-trip lemmas read back. */
  function Unwords(ws: seq<string>): string {
    if ws == [] then []
    else if |ws| == 1 then ws[0]
    else ws[0] + [' '] + Unwords(ws[1..])
  }

  lemma {:induction false} WordsFromWord(w: string, rest: string, pending: string)
    requires forall c | c in pending :: !IsSpace(c)
    requires forall c | c in w :: !IsSpace(c)
    ensures WordsFrom(w + rest, pending) == WordsFrom(rest, pending + w)
    decreases |w|
  {
    if w == [] {
      assert w + rest == rest;
      assert pending + w == pending;
    } else {
      assert (w + rest)[0] == w[0];
      assert (w + rest)[1..] == w[1..] + rest;
      assert pending + [w[0]] + w[1..] == pending + w;
      WordsFromWord(w[1..], rest, pending + [w[0]]);
    }
  }

  /** Splitting words joined by single spaces gives the words back. */
  lemma {:induction false} WordsUnwords(ws: seq<string>)
    requires forall w | w in ws :: IsWord(w)
    ensures Words(Unwords(ws)) == ws
  {
    if ws == [] {
    } else if |ws| == 1 {
      assert IsWord(ws[0]) by { assert ws[0] in ws; }
      WordsFromWord(ws[0], [], []);
      assert ws[0] + [] == ws[0];
      assert [] + ws[0] == ws[0];
    } else {
      var rest := [' '] + Unwords(ws[1..]);
      assert Unwords(ws) == ws[0] + rest;
      assert IsWord(ws[0]) by { assert ws[0] in ws; }
      assert forall w | w in ws[1..] :: IsWord(w) by {
        forall w | w in ws[1..] ensures IsWord(w) { assert w in ws; }
      }
      WordsFromWord(ws[0], rest, []);
      assert [] + ws[0] == ws[0];
      assert rest[0] == ' ' && rest[1..] == Unwords(ws[1..]);
      WordsUnwords(ws[1..]);
      assert WordsFrom(rest, ws[0]) == [ws[0]] + WordsFrom(Unwords(ws[1..]), []);
    }
  }

  /** Leading whitespace is skipped: it starts no word. */
  lemma {:induction false} WordsSkipSpace(sp: string, s: string)
    requires forall c | c in sp :: IsSpace(c)
    ensures Words(sp + s) == Words(s)
    decreases |sp|
  {
    if sp != [] {
      assert sp[0] in sp;
      assert (sp + s)[0] == sp[0] && (sp + s)[1..] == sp[1..] + s;
      assert forall c | c in sp[1..] :: IsSpace(c) by {
        forall c | c in sp[1..] ensures IsSpace(c) { assert c in sp; }
      }
      WordsSkipSpace(sp[1..], s);
    } else {
      assert sp + s == s;
    }
  }

  /** A word followed by whitespace is the first token, whatever follows,
      however much whitespace separates it from the rest. */
  lemma WordsFirst(w: string, sp: string, s: string)
    requires IsWord(w)
    requires sp != [] && forall c | c in sp :: IsSpace(c)
    ensures Words(w + sp + s) == [w] + Words(s)
  {
    WordsFromWord(w, sp + s, []);
    assert w + sp + s == w + (sp + s);
    assert [] + w == w;
    assert sp[0] in sp;
    assert (sp + s)[0] == sp[0] && (sp + s)[1..] == sp[1..] + s;
    assert forall c | c in sp[1..] :: IsSpace(c) by {
      forall c | c in sp[1..] ensures IsSpace(c) { assert c in sp; }
    }
    WordsSkipSpace(sp[1..], s);
  }

  /** `s.split(sep, 1)`: the text before the first `sep`, and the text after it
      when `sep` occurs at all. */
  function SplitOnce(s: string, sep: char): (r: (string, Option<string>))
    ensures r.1.None? <==> sep !in s
    ensures r.1.None? ==> r.0 == s
    ensures r.1.Some? ==> s == r.0 + [sep] + r.1.value && sep !in r.0
  {
    if s == [] then ([], None)
    else if s[0] == sep then ([], Some(s[1..]))
    else
      var (head, tail) := SplitOnce(s[1..], sep);
      assert tail.Some? ==> s == [s[0]] + s[1..];
      ([s[0]] + head, tail)
  }

  /** Splitting finds the first separator: the one after a prefix free of it. */
  lemma {:induction false} SplitOnceAt(prefix: string, sep: char, rest: string)
    requires sep !in prefix
    ensures SplitOnce(prefix + [sep] + rest, sep) == (prefix, Some(rest))
  {
    var s := prefix + [sep] + rest;
    if prefix != [] {
      assert s[1..] == prefix[1..] + [sep] + rest;
      assert prefix[0] in prefix;
      SplitOnceAt(prefix[1..], sep, rest);
      assert [prefix[0]] + prefix[1..] == prefix;
    }
  }

  /** `s.lstrip()`. */
  function StripLeft(s: string): (r: string)
    ensures exists i | 0 <= i <= |s| :: r == s[i..] && forall k | 0 <= k < i :: IsSpace(s[k])
    ensures r == [] || !IsSpace(r[0])
  {
    if s != [] && IsSpace(s[0]) then
      var r := StripLeft(s[1..]);
      ghost var i :| 0 <= i <= |s| - 1 && r == s[1..][i..] && forall k | 0 <= k < i :: IsSpace(s[1..][k]);
      assert r == s[i + 1..];
      r
    else
      assert s == s[0..];
      s
  }

  /** `s.rstrip()`. */
  function StripRight(s: string): (r: string)
    ensures exists j | 0 <= j <= |s| :: r == s[..j] && forall k | j <= k < |s| :: IsSpace(s[k])
    ensures r == [] || !IsSpace(r[|r| - 1])
  {
    if s != [] && IsSpace(s[|s| - 1]) then
      var r := StripRight(s[..|s| - 1]);
      ghost var init := s[..|s| - 1];
      ghost var j :| 0 <= j <= |init| && r == init[..j] && forall k | j <= k < |init| :: IsSpace(init[k]);
      assert r == s[..j];
      r
    else
      assert s == s[..|s|];
      s
  }

  /** Everything of `s` before `i` and from `j` on is whitespace. */
  predicate BlankOutside(s: string, i: nat, j: nat)
    requires i <= j <= |s|
  {
    (forall k | 0 <= k < i :: IsSpace(s[k])) && (forall k | j <= k < |s| :: IsSpace(s[k]))
  }

  /** Cutting whitespace off the back of a suffix of `s` that follows only
      whitespace keeps a middle of `s`. */
  lemma StripRightOfSuffix(s: string, i: nat)
    requires i <= |s| && forall k | 0 <= k < i :: IsSpace(s[k])
    ensures exists i': nat, j: nat | i' <= j <= |s| :: StripRight(s[i..]) == s[i'..j] && BlankOutside(s, i', j)
  {
    var left := s[i..];
    var j :| 0 <= j <= |left| && StripRight(left) == left[..j] && forall k | j <= k < |left| :: IsSpace(left[k]);
    forall k | i + j <= k < |s| ensures IsSpace(s[k]) {
      assert s[k] == left[k - i];
    }
    assert left[..j] == s[i..i + j];
    assert BlankOutside(s, i, i + j);
  }

  /** Cutting whitespace off both ends keeps a middle of `s`. */
  lemma StripMiddle(s: string)
    ensures exists i: nat, j: nat | i <= j <= |s| :: StripRight(StripLeft(s)) == s[i..j] && BlankOutside(s, i, j)
  {
    var i :| 0 <= i <= |s| && StripLeft(s) == s[i..] && forall k | 0 <= k < i :: IsSpace(s[k]);
    StripRightOfSuffix(s, i);
  }

  /** `s.strip()`: the middle of `s` between a leading and a trailing run of
      whitespace; neither end of the result is whitespace. */
  function Strip(s: string): (r: string)
    ensures exists i: nat, j: nat | i <= j <= |s| :: r == s[i..j] && BlankOutside(s, i, j)
    ensures r == [] || (!IsSpace(r[0]) && !IsSpace(r[|r| - 1]))
  {
    var left := StripLeft(s);
    var r := StripRight(left);
    assert r != [] ==> r[0] == left[0];
    StripMiddle(s);
    r
  }

  function LowerChar(c: char): char {
    if 'A' <= c <= 'Z' then (c as int - 'A' as int + 'a' as int) as char else c
  }

  /** `s.lower()` on ASCII letters. */
  function Lower(s: string): string {
    seq(|s|, i requires 0 <= i < |s| => LowerChar(s[i]))
  }
}

=== FILE: shlex.dfy ===
/** `shlex.split(s)` from Python's standard library, POSIX mode, no comments:
    whitespace separates tokens; single quotes take everything literally up to
    the closing quote; double quotes do the same except that a backslash escapes
    `"` or `\`; outside quotes a backslash escapes any character; quoted and
    unquoted pieces written next to each other form one token. */
module Shlex {
  import opened Wrappers

  /** The two ValueErrors `shlex.split` raises. */
  datatype ShlexError = NoClosingQuotation | NoEscapedCharacter

  /** Where the lexer stands between two characters: between tokens, inside a
      token outside quotes, inside single or double quotes, or just after a
      backslash that was read inside a token or inside double quotes. */
  datatype Mode = Between | InWord | InSingle | InDouble | EscapeInWord | EscapeInDouble

  /** shlex's whitespace set (smaller than `str.isspace`). */
  predicate IsBlank(c: char) {
    c == ' ' || c == '\t' || c == '\r' || c == '\n'
  }

  /** `shlex.split(s)`. Blank input has no tokens; input without double
      quotes or backslashes that holds an odd number of single quotes leaves
      one open, which is an error. */
  function Split(s: string): (r: Result<seq<string>, ShlexError>)
    ensures (forall c | c in s :: IsBlank(c)) ==> r == Success([])
    ensures '"' !in s && '\\' !in s && Quotes(s) % 2 == 1 ==> r == Failure(NoClosingQuotation)
  {
    LexBlanks(s);
    LexUnbalanced(s, Between, [], false);
    Lex(s, Between, [], false)
  }

  /** The number of single quotes in `s`. */
  function Quotes(s: string): nat {
    if s == [] then 0 else (if s[0] == '\'' then 1 else 0) + Quotes(s[1..])
  }

  lemma {:induction false} QuotesAppend(a: string, b: string)
    ensures Quotes(a + b) == Quotes(a) + Quotes(b)
  {
    if a != [] {
      assert (a + b)[0] == a[0] && (a + b)[1..] == a[1..] + b;
      QuotesAppend(a[1..], b);
    } else {
      assert a + b == b;
    }
  }

  lemma {:induction false} QuotesNone(s: string)
    requires '\'' !in s
    ensures Quotes(s) == 0
  {
    if s != [] {
      QuotesNone(s[1..]);
    }
  }

  /** Blanks between tokens produce no token. */
  lemma {:induction false} LexBlanks(s: string)
    ensures (forall c | c in s :: IsBlank(c)) ==> Lex(s, Between, [], false) == Success([])
  {
    if s != [] && forall c | c in s :: IsBlank(c) {
      assert s[0] in s;
      assert forall c | c in s[1..] :: IsBlank(c) by {
        forall c | c in s[1..] ensures IsBlank(c) { assert c in s; }
      }
      LexBlanks(s[1..]);
    }
  }

  /** Without double quotes and backslashes, every single quote switches
      between quoted and unquoted text; so the input ends inside quotes, which
      is an error, exactly when its parity says so. */
  lemma {:induction false} LexUnbalanced(s: string, mode: Mode, token: string, quoted: bool)
    ensures ('"' !in s && '\\' !in s && (mode == Between || mode == InWord || mode == InSingle)
             && (Quotes(s) % 2 == 1 <==> mode != InSingle))
            ==> Lex(s, mode, token, quoted) == Failure(NoClosingQuotation)
    decreases |s|
  {
    if '"' !in s && '\\' !in s && s != [] {
      var c, rest := s[0], s[1..];
      assert c in s;
      LexUnbalanced(rest, Between, [], false);
      LexUnbalanced(rest, InWord, token + [c], quoted);
      LexUnbalanced(rest, InWord, [c], false);
      LexUnbalanced(rest, InWord, token, true);
      LexUnbalanced(rest, InSingle, [], true);
      LexUnbalanced(rest, InSingle, token, true);
      LexUnbalanced(rest, InSingle, token + [c], true);
    }
  }

  /** Inside single quotes, text without a closing quote is an error. */
  lemma {:induction false} LexUnclosedSingle(t: string, token: string)
    requires '\'' !in t
    ensures Lex(t, InSingle, token, true) == Failure(NoClosingQuotation)
    decreases |t|
  {
    if t != [] {
      LexUnclosedSingle(t[1..], token + [t[0]]);
    }
  }

  /** Inside double quotes, text without a closing quote or a backslash is
      an error. */
  lemma {:induction false} LexUnclosedDouble(t: string, token: string)
    requires '"' !in t && '\\' !in t
    ensures Lex(t, InDouble, token, true) == Failure(NoClosingQuotation)
    decreases |t|
  {
    if t != [] {
      LexUnclosedDouble(t[1..], token + [t[0]]);
    }
  }

  /** Prepends a finished token to the tokens that follow it. A token counts
      when it has characters or came from quotes (so `''` gives an empty token). */
  function Emit(token: string, quoted: bool, more: Result<seq<string>, ShlexError>): Result<seq<string>, ShlexError> {
    match more
    case Failure(_) => more
    case Success(ts) => Success(if token != [] || quoted then [token] + ts else ts)
  }

  /** Lexes `s` in `mode`; `token` is the current token so far and `quoted`
      records whether any part of it was quoted. */
  function Lex(s: string, mode: Mode, token: string, quoted: bool): Result<seq<string>, ShlexError>
    decreases |s|
  {
    if s == [] then
      match mode
      case Between => Success([])
      case InWord => Emit(token, quoted, Success([]))
      case InSingle => Failure(NoClosingQuotation)
      case InDouble => Failure(NoClosingQuotation)
      case EscapeInWord => Failure(NoEscapedCharacter)
      case EscapeInDouble => Failure(NoEscapedCharacter)
    else
      var c, rest := s[0], s[1..];
      match mode
      case Between =>
        if IsBlank(c) then Lex(rest, Between, [], false)
        else if c == '\\' then Lex(rest, EscapeInWord, [], false)
        else if c == '\'' then Lex(rest, InSingle, [], true)
        else if c == '"' then Lex(rest, InDouble, [], true)
        else Lex(rest, InWord, [c], false)
      case InWord =>
        if IsBlank(c) then Emit(token, quoted, Lex(rest, Between, [], false))
        else if c == '\\' then Lex(rest, EscapeInWord, token, quoted)
        else if c == '\'' then Lex(rest, InSingle, token, true)
        else if c == '"' then Lex(rest, InDouble, token, true)
        else Lex(rest, InWord, token + [c], quoted)
      case InSingle =>
        if c == '\'' then Lex(rest, InWord, token, true)
        else Lex(rest, InSingle, token + [c], true)
      case InDouble =>
        if c == '"' then Lex(rest, InWord, token, true)
        else if c == '\\' then Lex(rest, EscapeInDouble, token, true)
        else Lex(rest, InDouble, token + [c], true)
      case EscapeInWord =>
        Lex(rest, InWord, token + [c], quoted)
      case EscapeInDouble =>
        Lex(rest, InDouble, if c == '"' || c == '\\' then token + [c] else token + ['\\', c], true)
  }

  /** How one token can be written on a command line: bare, in single quotes
      or in double quotes. */
  datatype Written = Bare(text: string) | SingleQuoted(text: string) | DoubleQuoted(text: string)

  predicate IsBareChar(c: char) {
    !IsBlank(c) && c != '\'' && c != '"' && c != '\\'
  }

  /** The token text can be written this way without escapes. */
  predicate Writable(w: Written) {
    match w
    case Bare(t) => t != [] && forall c | c in t :: IsBareChar(c)
    case SingleQuoted(t) => '\'' !in t
    case DoubleQuoted(t) => '"' !in t && '\\' !in t
  }

  function Render(w: Written): string {
    match w
    case Bare(t) => t
    case SingleQuoted(t) => "'" + t + "'"
    case DoubleQuoted(t) => "\"" + t + "\""
  }

  /** Written tokens separated by single spaces. */
  function Line(ws: seq<Written>): string {
    if ws == [] then []
    else if |ws| == 1 then Render(ws[0])
    else Render(ws[0]) + (" " + Line(ws[1..]))
  }

  function Texts(ws: seq<Written>): (r: seq<string>)
    ensures |r| == |ws| && forall i | 0 <= i < |ws| :: r[i] == ws[i].text
  {
    if ws == [] then [] else [ws[0].text] + Texts(ws[1..])
  }

  lemma {:induction false} LexBare(t: string, rest: string, token: string, quoted: bool)
    requires forall c | c in t :: IsBareChar(c)
    ensures Lex(t + rest, InWord, token, quoted) == Lex(rest, InWord, token + t, quoted)
    decreases |t|
  {
    if t == [] {
      assert t + rest == rest && token + t == token;
    } else {
      assert (t + rest)[0] == t[0] && (t + rest)[1..] == t[1..] + rest;
      assert t[0] in t;
      LexBare(t[1..], rest, token + [t[0]], quoted);
      assert token + [t[0]] + t[1..] == token + t;
    }
  }

  lemma {:induction false} LexSingle(t: string, rest: string, token: string)
    requires '\'' !in t
    ensures Lex(t + "'" + rest, InSingle, token, true) == Lex(rest, InWord, token + t, true)
    decreases |t|
  {
    var s := t + "'" + rest;
    if t == [] {
      assert s[0] == '\'' && s[1..] == rest && token + t == token;
    } else {
      assert s[0] == t[0] && s[1..] == t[1..] + "'" + rest;
      LexSingle(t[1..], rest, token + [t[0]]);
      assert token + [t[0]] + t[1..] == token + t;
    }
  }

  lemma {:induction false} LexDouble(t: string, rest: string, token: string)
    requires '"' !in t && '\\' !in t
    ensures Lex(t + "\"" + rest, InDouble, token, true) == Lex(rest, InWord, token + t, true)
    decreases |t|
  {
    var s := t + "\"" + rest;
    if t == [] {
      assert s[0] == '"' && s[1..] == rest && token + t == token;
    } else {
      assert s[0] == t[0] && s[1..] == t[1..] + "\"" + rest;
      LexDouble(t[1..], rest, token + [t[0]]);
      assert token + [t[0]] + t[1..] == token + t;
    }
  }

  lemma ReadBare(t: string, rest: string)
    requires Writable(Bare(t))
    ensures Lex(t + rest, Between, [], false) == Lex(rest, InWord, t, false)
  {
    var s := t + rest;
    assert s[0] == t[0] && s[1..] == t[1..] + rest;
    assert t[0] in t;
    LexBare(t[1..], rest, [t[0]], false);
    assert [t[0]] + t[1..] == t;
  }

  lemma ReadSingleQuoted(t: string, rest: string)
    requires '\'' !in t
    ensures Lex("'" + t + "'" + rest, Between, [], false) == Lex(rest, InWord, t, true)
  {
    var s := "'" + t + "'" + rest;
    assert s[0] == '\'' && s[1..] == t + "'" + rest;
    LexSingle(t, rest, []);
    assert [] + t == t;
  }

  lemma ReadDoubleQuoted(t: string, rest: string)
    requires '"' !in t && '\\' !in t
    ensures Lex("\"" + t + "\"" + rest, Between, [], false) == Lex(rest, InWord, t, true)
  {
    var s := "\"" + t + "\"" + rest;
    assert s[0] == '"' && s[1..] == t + "\"" + rest;
    LexDouble(t, rest, []);
    assert [] + t == t;
  }

  /** A written token is read back as its text, whatever follows it. */
  lemma ReadWritten(w: Written, rest: string)
    requires Writable(w)
    ensures Lex(Render(w) + rest, Between, [], false) == Lex(rest, InWord, w.text, !w.Bare?)
  {
    match w
    case Bare(t) => ReadBare(t, rest);
    case SingleQuoted(t) => ReadSingleQuoted(t, rest);
    case DoubleQuoted(t) => ReadDoubleQuoted(t, rest);
  }

  /** `Split` undoes `Line`: tokens written bare or quoted, separated by
      spaces, are read back as their texts, in order. */
  lemma {:induction false} SplitLine(ws: seq<Written>)
    requires forall w | w in ws :: Writable(w)
    ensures Split(Line(ws)) == Success(Texts(ws))
  {
    if ws == [] {
    } else if |ws| == 1 {
      assert ws[0] in ws;
      ReadWritten(ws[0], []);
      assert Render(ws[0]) + [] == Render(ws[0]);
      assert Texts(ws) == [ws[0].text] + [];
    } else {
      assert ws[0] in ws;
      var more := " " + Line(ws[1..]);
      assert Line(ws) == Render(ws[0]) + more;
      ReadWritten(ws[0], more);
      assert more[0] == ' ' && more[1..] == Line(ws[1..]);
      assert forall w | w in ws[1..] :: Writable(w) by {
        forall w | w in ws[1..] ensures Writable(w) { assert w in ws; }
      }
      SplitLine(ws[1..]);
    }
  }

  /** The tokens `ts` put in front of the tokens of a successful split; a
      failure stays the failure. */
  function Prepend(ts: seq<string>, more: Result<seq<string>, ShlexError>): Result<seq<string>, ShlexError> {
    match more
    case Failure(_) => more
    case Success(us) => Success(ts + us)
  }

  /** A blank ends the token being read. */
  lemma LexGap(more: string, token: string, quoted: bool)
    ensures Lex(" " + more, InWord, token, quoted) == Emit(token, quoted, Lex(more, Between, [], false))
  {
    var gap := " " + more;
    assert gap[0] == ' ' && gap[1..] == more;
  }

  /** Emitting a token in front of prepended tokens prepends them all. */
  lemma EmitPrepend(token: string, quoted: bool, ts: seq<string>, more: Result<seq<string>, ShlexError>)
    requires token != [] || quoted
    ensures Emit(token, quoted, Prepend(ts, more)) == Prepend([token] + ts, more)
  {
    if more.Success? {
      assert [token] + (ts + more.value) == ([token] + ts) + more.value;
    }
  }

  /** Written tokens followed by a space are read as their texts, in front
      of whatever the rest of the line gives, error included. */
  lemma {:induction false} LexAfterLine(ws: seq<Written>, rest: string)
    requires ws != [] && forall w | w in ws :: Writable(w)
    ensures Lex(Line(ws) + " " + rest, Between, [], false) == Prepend(Texts(ws), Lex(rest, Between, [], false))
  {
    var w := ws[0];
    assert w in ws;
    var more := if |ws| == 1 then rest else Line(ws[1..]) + " " + rest;
    assert Line(ws) + " " + rest == Render(w) + (" " + more);
    ReadWritten(w, " " + more);
    LexGap(more, w.text, !w.Bare?);
    if |ws| == 1 {
      var tail := Lex(rest, Between, [], false);
      if tail.Success? {
        assert [] + tail.value == tail.value;
      }
      EmitPrepend(w.text, !w.Bare?, [], tail);
      assert Texts(ws) == [w.text] + [];
    } else {
      assert forall v | v in ws[1..] :: Writable(v) by {
        forall v | v in ws[1..] ensures Writable(v) { assert v in ws; }
      }
      LexAfterLine(ws[1..], rest);
      EmitPrepend(w.text, !w.Bare?, Texts(ws[1..]), Lex(rest, Between, [], false));
      assert Texts(ws) == [w.text] + Texts(ws[1..]);
    }
  }

  /** A line that opens a single quote after its tokens and never closes it
      is the "No closing quotation" error. */
  lemma UnclosedQuote(ws: seq<Written>, t: string)
    requires forall w | w in ws :: Writable(w)
    requires '\'' !in t
    ensures Split(Line(ws) + " '" + t) == Failure(NoClosingQuotation)
  {
    LexUnclosedSingle(t, []);
    var open := "'" + t;
    assert open[0] == '\'' && open[1..] == t;
    assert Lex(open, Between, [], false) == Failure(NoClosingQuotation);
    if ws == [] {
      var s := " " + open;
      assert s[0] == ' ' && s[1..] == open;
      assert Line(ws) + " '" + t == s;
    } else {
      assert Line(ws) + " '" + t == Line(ws) + " " + open;
      LexAfterLine(ws, open);
    }
  }

  /** A line that opens a double quote after its tokens and never closes it
      is the "No closing quotation" error as well. */
  lemma UnclosedDoubleQuote(ws: seq<Written>, t: string)
    requires forall w | w in ws :: Writable(w)
    requires '"' !in t && '\\' !in t
    ensures Split(Line(ws) + " \"" + t) == Failure(NoClosingQuotation)
  {
    LexUnclosedDouble(t, []);
    var open := "\"" + t;
    assert open[0] == '"' && open[1..] == t;
    assert Lex(open, Between, [], false) == Failure(NoClosingQuotation);
    if ws == [] {
      var s := " " + open;
      assert s[0] == ' ' && s[1..] == open;
      assert Line(ws) + " \"" + t == s;
    } else {
      assert Line(ws) + " \"" + t == Line(ws) + " " + open;
      LexAfterLine(ws, open);
    }
  }

  /** A bare word of lower-case letters and digits needs no quotes. */
  lemma BareWritable(t: string)
    requires t != [] && forall i | 0 <= i < |t| :: 'a' <= t[i] <= 'z' || '0' <= t[i] <= '9'
    ensures Writable(Bare(t))
  {
  }

  /** A double-quoted phrase of letters, digits, spaces, question marks
      and apostrophes needs no escapes. */
  lemma PhraseWritable(t: string)
    requires forall i | 0 <= i < |t| :: t[i] == ' ' || t[i] == '?' || t[i] == '\'' || 'a' <= t[i] <= 'z' || 'A' <= t[i] <= 'Z' || '0' <= t[i] <= '9'
    ensures Writable(DoubleQuoted(t))
  {
  }

  /** The example in the docstring of the create-poll parser,
      `time "What time is it?" 3pm "4 o clock"`: two bare words and two
      double-quoted phrases. */
  const DocstringLine: seq<Written> :=
    [Bare("time"), DoubleQuoted("What time is it?"), Bare("3pm"), DoubleQuoted("4 o clock")]

  /** The example command line `pets "who's better?" dogs cats "cat dogs"`:
      the apostrophe sits inside double quotes. */
  const PetsLine: seq<Written> :=
    [Bare("pets"), DoubleQuoted("who's better?"), Bare("dogs"), Bare("cats"), DoubleQuoted("cat dogs")]

  /** Text free of quotes and backslashes. */
  predicate Plain(t: string) {
    '\'' !in t && '"' !in t && '\\' !in t
  }

  /** Five plain pieces, each followed by a single quote, leave the last
      quote open. */
  lemma FiveQuotesUnclosed(a: string, b: string, c: string, d: string, e: string)
    requires Plain(a) && Plain(b) && Plain(c) && Plain(d) && Plain(e)
    ensures Split(a + "'" + b + "'" + c + "'" + d + "'" + e + "'") == Failure(NoClosingQuotation)
  {
    var q := "'";
    assert Quotes(q) == 1;
    QuotesNone(a);
    QuotesNone(b);
    QuotesNone(c);
    QuotesNone(d);
    QuotesNone(e);
    QuotesAppend(a, q);
    QuotesAppend(a + q, b);
    QuotesAppend(a + q + b, q);
    QuotesAppend(a + q + b + q, c);
    QuotesAppend(a + q + b + q + c, q);
    QuotesAppend(a + q + b + q + c + q, d);
    QuotesAppend(a + q + b + q + c + q + d, q);
    QuotesAppend(a + q + b + q + c + q + d + q, e);
    QuotesAppend(a + q + b + q + c + q + d + q + e, q);
  }

  /** The arguments of the create-poll example in the bot's help text,
      `pets 'who's better?' dogs cats 'cat dogs'`, piece by piece: the
      apostrophe of "who's" is read as a quote, so five single quotes occur. */
  const HelpExampleArgs: string :=
    "pets " + "'" + "who" + "'" + "s better?" + "'" + " dogs cats " + "'" + "cat dogs" + "'"

  /** The help text's example leaves a single quote open. */
  lemma HelpExampleUnclosed()
    ensures Split(HelpExampleArgs) == Failure(NoClosingQuotation)
  {
    FiveQuotesUnclosed("pets ", "who", "s better?", " dogs cats ", "cat dogs");
  }

  lemma DocstringWritable()
    ensures forall w | w in DocstringLine :: Writable(w)
  {
    BareWritable("time");
    BareWritable("3pm");
    PhraseWritable("What time is it?");
    PhraseWritable("4 o clock");
  }

  lemma PetsWritable()
    ensures forall w | w in PetsLine :: Writable(w)
  {
    BareWritable("pets");
    BareWritable("dogs");
    BareWritable("cats");
    PhraseWritable("who's better?");
    PhraseWritable("cat dogs");
  }

  /** The docstring example is read as the docstring says: the quotes group
      the words between them. */
  lemma DocstringExample()
    ensures Split(Line(DocstringLine)) == Success(["time", "What time is it?", "3pm", "4 o clock"])
  {
    DocstringWritable();
    SplitLine(DocstringLine);
    assert Texts(DocstringLine) == ["time", "What time is it?", "3pm", "4 o clock"];
  }

  /** The pets line splits into the poll ID, the question and three answers,
      with the apostrophe kept in the question. */
  lemma PetsExample()
    ensures Split(Line(PetsLine)) == Success(["pets", "who's better?", "dogs", "cats", "cat dogs"])
  {
    PetsWritable();
    SplitLine(PetsLine);
    assert Texts(PetsLine) == ["pets", "who's better?", "dogs", "cats", "cat dogs"];
  }
}

=== FILE: votebot.dfy ===
/** The bot: its registry of open polls and the handlers of the five
    commands. The handlers' replies and state changes are stated against the
    value-level definitions of `Polls` and `Commands`. */
module Bot {
  import opened Wrappers
  import opened PyText
  import opened BotErrors
  import opened Polls
  import opened Commands

  /** What a vote command does: its reply, and the poll it updates with that
      poll's new state, if any. */
  datatype VoteEffect = VoteEffect(reply: Reply, updated: Option<(string, PollState)>)

  /** What `handleVote` reads from a command before it looks up the poll:
      the voter's host, the poll ID and the answer number. */
  datatype Ballot = Ballot(voterHost: string, pollID: string, answerEnum: int)

  /** The checks of `handleVote` before the poll lookup, in the source's
      order: the host is taken from the source first (so a source that is not
      `nick!user@host` raises whatever the arguments), then the arguments are
      required and parsed. A failure is the reply that ends the command. */
  function ReadBallot(source: string, cmdArgs: Option<string>): (r: Result<Ballot, Reply>)
    ensures r.Success? <==> VoterHost(source).Some? && !NoArgs(cmdArgs) && ParseVoteArgs(cmdArgs.value).Success?
    ensures r.Success? ==>
      && Some(r.value.voterHost) == VoterHost(source)
      && r.value.pollID == ParseVoteArgs(cmdArgs.value).value.pollID
      && r.value.answerEnum == ParseVoteArgs(cmdArgs.value).value.answerEnum
    ensures VoterHost(source).None? ==> r == Failure(Raised(IndexOutOfRange))
    ensures VoterHost(source).Some? && NoArgs(cmdArgs) ==> r == Failure(Notices([NoVoteArgs]))
    ensures VoterHost(source).Some? && !NoArgs(cmdArgs) && ParseVoteArgs(cmdArgs.value) == Failure(NotEnoughArguments)
            ==> r == Failure(Notices([FewVoteArgs]))
    ensures VoterHost(source).Some? && !NoArgs(cmdArgs) && ParseVoteArgs(cmdArgs.value) == Failure(BadVoteOption)
            ==> r == Failure(Notices([VoteNotInteger]))
  {
    match VoterHost(source)
    case None => Failure(Raised(IndexOutOfRange))
    case Some(voterHost) =>
      if NoArgs(cmdArgs) then Failure(Notices([NoVoteArgs]))
      else
        match ParseVoteArgs(cmdArgs.value)
        case Failure(e) => Failure(Notices([if e == NotEnoughArguments then FewVoteArgs else VoteNotInteger]))
        case Success(VoteArgs(pollID, answerEnum)) => Success(Ballot(voterHost, pollID, answerEnum))
  }

  /** The rest of `handleVote`: a ballot for an open poll is cast with
      `Poll.voteForAnswer`, and the outcome is reported. */
  function CountBallot(source: string, ballot: Ballot, tallies: map<string, PollState>): (r: VoteEffect)
    ensures r.updated.Some? <==> ballot.pollID in tallies && CastVote(tallies[ballot.pollID], ballot.answerEnum, ballot.voterHost).Voted?
    ensures r.updated.Some? ==> r.updated.value == (ballot.pollID, CastVote(tallies[ballot.pollID], ballot.answerEnum, ballot.voterHost).next)
    ensures r.reply.Notices? && |r.reply.lines| == 1
    ensures ballot.pollID !in tallies ==> r.reply.lines[0] == NoSuchPoll(ballot.pollID)
    ensures ballot.pollID in tallies ==>
      r.reply.lines[0] == match CastVote(tallies[ballot.pollID], ballot.answerEnum, ballot.voterHost)
        case Voted(option, _) => VoteCounted(ballot.answerEnum, option)
        case Rejected(HostAlreadyVoted) => AlreadyVoted(source)
        case Rejected(_) => NoSuchOption(ballot.answerEnum, ballot.pollID)
  {
    var Ballot(voterHost, pollID, answerEnum) := ballot;
    if pollID !in tallies then VoteEffect(Notices([NoSuchPoll(pollID)]), None)
    else
      match CastVote(tallies[pollID], answerEnum, voterHost)
      case Rejected(error) =>
        VoteEffect(Notices([if error == HostAlreadyVoted then AlreadyVoted(source)
                            else NoSuchOption(answerEnum, pollID)]), None)
      case Voted(option, next) =>
        VoteEffect(Notices([VoteCounted(answerEnum, option)]), Some((pollID, next)))
  }

  /** `VoteBot.handleVote` on values, given the state of every open poll.
      The only exception is the IndexError of a source without a host; every
      other outcome is one notice; and a poll changes only by the vote
      `CastVote` accepts from the source's host for the parsed poll and
      answer. */
  function VoteStep(source: string, cmdArgs: Option<string>, tallies: map<string, PollState>): (r: VoteEffect)
    ensures r.reply.Raised? <==> VoterHost(source).None?
    ensures r.reply.Raised? ==> r.reply.error == IndexOutOfRange
    ensures r.reply.Notices? ==> |r.reply.lines| == 1
    ensures r.updated.Some? ==>
      && VoterHost(source).Some? && !NoArgs(cmdArgs) && ParseVoteArgs(cmdArgs.value).Success?
      && var args := ParseVoteArgs(cmdArgs.value).value;
         && r.updated.value.0 == args.pollID && args.pollID in tallies
         && CastVote(tallies[args.pollID], args.answerEnum, VoterHost(source).value).Voted?
         && r.updated.value.1 == CastVote(tallies[args.pollID], args.answerEnum, VoterHost(source).value).next
  {
    match ReadBallot(source, cmdArgs)
    case Failure(reply) => VoteEffect(reply, None)
    case Success(ballot) => CountBallot(source, ballot, tallies)
  }

  /** The poll states after a vote command. */
  function AfterVote(tallies: map<string, PollState>, updated: Option<(string, PollState)>): map<string, PollState> {
    if updated.Some? then tallies[updated.value.0 := updated.value.1] else tallies
  }

  /** A full vote line from `nick!user@host` is read as the ballot of `host`
      for that poll and answer number. */
  lemma ReadFullBallot(nick: string, user: string, host: string, pollID: string, answerEnum: int, extra: seq<string>)
    requires '!' !in nick && '@' !in user
    requires IsWord(pollID) && forall w | w in extra :: IsWord(w)
    ensures ReadBallot(nick + "!" + user + "@" + host, Some(Unwords([pollID, Numerals.IntToDecimal(answerEnum)] + extra)))
         == Success(Ballot(host, pollID, answerEnum))
  {
    VoterHostOfMask(nick, user, host);
    VoteArgsRoundTrip(pollID, answerEnum, extra);
  }

  /** A first vote in an open poll for one of its answers is counted. */
  lemma FirstVoteCounted(source: string, host: string, pollID: string, answerEnum: int, tallies: map<string, PollState>)
    requires pollID in tallies && answerEnum in tallies[pollID].answers
    requires host !in tallies[pollID].votedHosts
    ensures var s := tallies[pollID];
      var option := s.answers[answerEnum].(count := s.answers[answerEnum].count + 1);
      CountBallot(source, Ballot(host, pollID, answerEnum), tallies)
      == VoteEffect(Notices([VoteCounted(answerEnum, option)]),
                    Some((pollID, PollState(s.answers[answerEnum := option], s.votedHosts + {host}))))
  {
  }

  /** A vote command from `nick!user@host` naming an open poll and one of its
      answers, by a host that has not voted there, records the vote: that
      answer's count goes up by one and the reply reports the new count. */
  lemma VoteCommandCounts(nick: string, user: string, host: string, pollID: string, answerEnum: int,
                          extra: seq<string>, tallies: map<string, PollState>)
    requires '!' !in nick && '@' !in user
    requires IsWord(pollID) && forall w | w in extra :: IsWord(w)
    requires pollID in tallies && answerEnum in tallies[pollID].answers
    requires host !in tallies[pollID].votedHosts
    ensures var s := tallies[pollID];
      var option := s.answers[answerEnum].(count := s.answers[answerEnum].count + 1);
      VoteStep(nick + "!" + user + "@" + host, Some(Unwords([pollID, Numerals.IntToDecimal(answerEnum)] + extra)), tallies)
      == VoteEffect(Notices([VoteCounted(answerEnum, option)]),
                    Some((pollID, PollState(s.answers[answerEnum := option], s.votedHosts + {host}))))
  {
    var source := nick + "!" + user + "@" + host;
    var cmdArgs := Some(Unwords([pollID, Numerals.IntToDecimal(answerEnum)] + extra));
    ReadFullBallot(nick, user, host, pollID, answerEnum, extra);
    FirstVoteCounted(source, host, pollID, answerEnum, tallies);
    assert VoteStep(source, cmdArgs, tallies) == CountBallot(source, Ballot(host, pollID, answerEnum), tallies);
  }

  /** A vote command without arguments gets the notice that asks for them. */
  lemma VoteWithoutArguments(nick: string, user: string, host: string, cmdArgs: Option<string>,
                             tallies: map<string, PollState>)
    requires '!' !in nick && '@' !in user
    requires NoArgs(cmdArgs)
    ensures VoteStep(nick + "!" + user + "@" + host, cmdArgs, tallies) == VoteEffect(Notices([NoVoteArgs]), None)
  {
    VoterHostOfMask(nick, user, host);
  }

  /** A vote command naming a poll but no answer gets the "not enough
      arguments" notice. */
  lemma VoteWithoutAnswer(nick: string, user: string, host: string, pollID: string,
                          tallies: map<string, PollState>)
    requires '!' !in nick && '@' !in user
    requires IsWord(pollID)
    ensures VoteStep(nick + "!" + user + "@" + host, Some(pollID), tallies) == VoteEffect(Notices([FewVoteArgs]), None)
  {
    VoterHostOfMask(nick, user, host);
    VoteArgsTooFew([pollID]);
  }

  /** A vote command whose answer is not an integer gets the notice that
      says so. */
  lemma VoteForNonInteger(nick: string, user: string, host: string, ws: seq<string>,
                          tallies: map<string, PollState>)
    requires '!' !in nick && '@' !in user
    requires |ws| >= 2 && forall w | w in ws :: IsWord(w)
    requires Numerals.ParseInt(ws[1]).None?
    ensures VoteStep(nick + "!" + user + "@" + host, Some(Unwords(ws)), tallies) == VoteEffect(Notices([VoteNotInteger]), None)
  {
    VoterHostOfMask(nick, user, host);
    VoteArgsNotInteger(ws);
    assert Unwords(ws) != [] by {
      assert ws[0] in ws;
      assert Unwords(ws) == ws[0] + [' '] + Unwords(ws[1..]);
    }
  }

  /** A vote from a source without `!` raises the IndexError, whatever its
      arguments. */
  lemma VoteFromSourceWithoutHost(source: string, cmdArgs: Option<string>, tallies: map<string, PollState>)
    requires '!' !in source
    ensures VoteStep(source, cmdArgs, tallies) == VoteEffect(Raised(IndexOutOfRange), None)
  {
  }

  /** A vote for a poll that is not open gets "No such poll" with its ID. */
  lemma VoteForMissingPoll(nick: string, user: string, host: string, pollID: string, answerEnum: int,
                           extra: seq<string>, tallies: map<string, PollState>)
    requires '!' !in nick && '@' !in user
    requires IsWord(pollID) && forall w | w in extra :: IsWord(w)
    requires pollID !in tallies
    ensures VoteStep(nick + "!" + user + "@" + host, Some(Unwords([pollID, Numerals.IntToDecimal(answerEnum)] + extra)), tallies)
         == VoteEffect(Notices([NoSuchPoll(pollID)]), None)
  {
    ReadFullBallot(nick, user, host, pollID, answerEnum, extra);
  }

  /** A first vote for an answer number the poll does not have gets "no such
      option" with the number and the poll ID, and changes nothing. */
  lemma VoteForMissingAnswer(nick: string, user: string, host: string, pollID: string, answerEnum: int,
                             extra: seq<string>, tallies: map<string, PollState>)
    requires '!' !in nick && '@' !in user
    requires IsWord(pollID) && forall w | w in extra :: IsWord(w)
    requires pollID in tallies && answerEnum !in tallies[pollID].answers
    requires host !in tallies[pollID].votedHosts
    ensures VoteStep(nick + "!" + user + "@" + host, Some(Unwords([pollID, Numerals.IntToDecimal(answerEnum)] + extra)), tallies)
         == VoteEffect(Notices([NoSuchOption(answerEnum, pollID)]), None)
  {
    ReadFullBallot(nick, user, host, pollID, answerEnum, extra);
  }

  /** One vote per host across commands: once a vote command has been
      recorded, any later vote command in the same poll from a source with
      the same host is refused with "already voted" and changes nothing,
      whatever answer it names. */
  lemma RepeatVoteRefused(source: string, cmdArgs: Option<string>, tallies: map<string, PollState>,
                          source2: string, cmdArgs2: Option<string>)
    requires VoteStep(source, cmdArgs, tallies).updated.Some?
    requires VoterHost(source2) == VoterHost(source)
    requires cmdArgs2.Some? && ParseVoteArgs(cmdArgs2.value).Success?
    requires ParseVoteArgs(cmdArgs2.value).value.pollID == VoteStep(source, cmdArgs, tallies).updated.value.0
    ensures var after := AfterVote(tallies, VoteStep(source, cmdArgs, tallies).updated);
      VoteStep(source2, cmdArgs2, after) == VoteEffect(Notices([AlreadyVoted(source2)]), None)
  {
    var pollID := VoteStep(source, cmdArgs, tallies).updated.value.0;
    var n := ParseVoteArgs(cmdArgs.value).value.answerEnum;
    SecondVoteRejected(tallies[pollID], n, ParseVoteArgs(cmdArgs2.value).value.answerEnum, VoterHost(source).value);
    assert cmdArgs2.value != [] by {
      assert Words([]) == [];
    }
  }

  /** What `createpoll` asks for: no argument text is the same error as too
      few tokens. */
  function CreateRequest(cmdArgs: Option<string>, openPolls: set<string>): (r: Result<CreateArgs, BotError>)
    ensures NoArgs(cmdArgs) ==> r == Failure(NotEnoughArguments)
    ensures r.Success? ==> |r.value.pollID| <= PollIDMaxLen && r.value.pollID !in openPolls && r.value.answers != []
    ensures r.Failure? ==> r.error.IsValueError() || r.error.BadPollIDValue?
  {
    if NoArgs(cmdArgs) then Failure(NotEnoughArguments) else ParseCreatePollArgs(cmdArgs.value, openPolls)
  }

  /** The notice for a refused `createpoll`. */
  function CreateErrorNotice(error: BotError): Notice {
    if error.BadPollIDValue? then InvalidPollID(error.pollID) else CreateArgsError
  }

  /** No ID occurs twice: the last one is not among the others, and so on. */
  predicate Distinct(ids: seq<string>) {
    ids == [] || (ids[|ids| - 1] !in ids[..|ids| - 1] && Distinct(ids[..|ids| - 1]))
  }

  /** Distinct IDs sit at distinct positions. */
  lemma {:induction false} DistinctPositions(ids: seq<string>)
    requires Distinct(ids)
    ensures forall i, j | 0 <= i < j < |ids| :: ids[i] != ids[j]
  {
    if ids != [] {
      var init := ids[..|ids| - 1];
      DistinctPositions(init);
      forall i, j | 0 <= i < j < |ids|
        ensures ids[i] != ids[j]
      {
        if j < |ids| - 1 {
          assert ids[i] == init[i] && ids[j] == init[j];
        } else {
          assert ids[i] == init[i] && init[i] in init;
        }
      }
    }
  }

  /** The bot's registry of open polls. */
  class VoteBot {
    /** The nickname the bot answers to. */
    const nickname: string
    /** The channel the bot joins. Only `on_welcome`, which joins it on
        connecting and is not modelled, reads it; no command handler does. */
    const channel: string
    /** The open polls by ID. */
    var polls: map<string, Poll>
    /** The poll IDs in the order the polls were created (the iteration order
        of the source's dictionary). */
    var pollOrder: seq<string>

    /** Every poll is listed once in creation order and is stored under its
        own ID, of at most `PollIDMaxLen` characters; distinct IDs therefore
        hold distinct poll objects. */
    ghost predicate Registry()
      reads this
    {
      && (forall id | id in polls :: id in pollOrder)
      && OrderedPolls()
      && Distinct(pollOrder)
      && (forall id | id in polls :: polls[id].pollID == id && |id| <= PollIDMaxLen)
    }

    /** Every ID in the creation order names an open poll. */
    ghost predicate OrderedPolls()
      reads this
    {
      forall i | 0 <= i < |pollOrder| :: pollOrder[i] in polls
    }

    /** The registry invariant, and every poll keeps the poll invariant. */
    ghost predicate Valid()
      reads this, polls.Values
    {
      && Registry()
      && (forall id {:trigger polls[id].Valid()} | id in polls :: polls[id].Valid())
    }

    /** The state of every open poll. */
    ghost function Tallies(): map<string, PollState>
      reads this, polls.Values
    {
      map id | id in polls :: polls[id].State()
    }

    /** What `displayPollInfo` sends for `pollID`. */
    ghost function InfoOf(pollID: string): seq<Notice>
      requires Valid()
      reads this, polls.Values
    {
      if pollID in polls then
        assert polls[pollID].Valid();
        InfoLines(pollID, polls[pollID].question, polls[pollID].answers, polls[pollID].optionCount)
      else [NoSuchPollID(pollID)]
    }

    /** What `handlePollInfo` replies: the display of the poll named by the
        first word of the arguments. */
    ghost function PollInfoReply(cmdArgs: Option<string>): Reply
      requires Valid()
      reads this, polls.Values
    {
      if NoArgs(cmdArgs) then Notices([NoPollInfoArgs])
      else if Words(cmdArgs.value) == [] then Raised(IndexOutOfRange)
      else Notices(InfoOf(Words(cmdArgs.value)[0]))
    }

    /** The `PollID <id>: '<question>',` lines of the first n polls in
        creation order. */
    ghost function ListedPolls(n: nat): (r: seq<Notice>)
      requires OrderedPolls() && n <= |pollOrder|
      reads this
      ensures |r| == n
    {
      if n == 0 then [] else ListedPolls(n - 1) + [PollListed(pollOrder[n - 1], polls[pollOrder[n - 1]].question)]
    }

    /** What `handleList` replies. */
    ghost function ListReply(): Reply
      requires OrderedPolls()
      reads this
    {
      if |polls| == 0 then Notices([NoOpenPolls]) else Notices([OpenPollsHeader] + ListedPolls(|pollOrder|))
    }

    /** Line i + 1 of the list names the i-th poll created, with its
        question, after the header; there is one line per poll. */
    lemma ListShowsPoll(i: nat)
      requires OrderedPolls() && i < |pollOrder|
      ensures ListReply().Notices? && |ListReply().lines| == |pollOrder| + 1
      ensures ListReply().lines[0] == OpenPollsHeader
      ensures ListReply().lines[i + 1] == PollListed(pollOrder[i], polls[pollOrder[i]].question)
    {
      assert pollOrder[0] in polls;
      var listed := ListedPolls(|pollOrder|);
      assert ListReply() == Notices([OpenPollsHeader] + listed);
      ListedAt(|pollOrder|, i);
    }

    /** The creation order names every open poll, and no poll twice; so the
        list shows each open poll exactly once. */
    lemma OrderListsEachPollOnce()
      requires Registry()
      ensures forall id | id in polls :: id in pollOrder
      ensures forall i, j | 0 <= i < j < |pollOrder| :: pollOrder[i] != pollOrder[j]
    {
      DistinctPositions(pollOrder);
    }

    /** Line i of the first n listed polls names the i-th poll created. */
    lemma {:induction false} ListedAt(n: nat, i: nat)
      requires OrderedPolls() && i < n <= |pollOrder|
      ensures ListedPolls(n)[i] == PollListed(pollOrder[i], polls[pollOrder[i]].question)
    {
      if i < n - 1 {
        ListedAt(n - 1, i);
      }
    }

    /** `VoteBot.__init__`: no polls yet. */
    constructor (channel: string, nickname: string)
      ensures Valid()
      ensures this.channel == channel && this.nickname == nickname
      ensures polls == map[] && pollOrder == []
    {
      this.channel := channel;
      this.nickname := nickname;
      polls := map[];
      pollOrder := [];
    }

    /** `displayPollInfo`: the header, then each answer in ascending order of
        its number, or "No such PollID". */
    method DisplayPollInfo(pollID: string) returns (lines: seq<Notice>)
      requires Valid()
      ensures lines == InfoOf(pollID)
    {
      if pollID !in polls {
        return [NoSuchPollID(pollID)];
      }
      var poll := polls[pollID];
      assert poll.Valid();
      var options := ShowOptions(poll.answers, poll.optionCount);
      lines := [PollHeader(pollID, poll.question)] + options;
    }

    /** `handlePollInfo`. */
    method HandlePollInfo(cmdArgs: Option<string>) returns (reply: Reply)
      requires Valid()
      ensures reply == PollInfoReply(cmdArgs)
    {
      if NoArgs(cmdArgs) {
        return Notices([NoPollInfoArgs]);
      }
      var words := Words(cmdArgs.value);
      if words == [] {
        return Raised(IndexOutOfRange);
      }
      var lines := DisplayPollInfo(words[0]);
      return Notices(lines);
    }

    /** `handleList`: every open poll once, in creation order. */
    method HandleList() returns (reply: Reply)
      requires Valid()
      ensures reply == ListReply()
    {
      if |polls| == 0 {
        return Notices([NoOpenPolls]);
      }
      var lines := [OpenPollsHeader];
      for i := 0 to |pollOrder|
        invariant lines == [OpenPollsHeader] + ListedPolls(i)
      {
        lines := lines + [PollListed(pollOrder[i], polls[pollOrder[i]].question)];
      }
      return Notices(lines);
    }

    /** `handleCreatePoll`: a request that parses opens a new poll under its
        ID and shows it; any other request changes nothing and gets one error
        notice. */
    method HandleCreatePoll(source: string, cmdArgs: Option<string>) returns (reply: Reply)
      requires Valid()
      modifies this
      ensures Valid()
      ensures fresh(polls.Values - old(polls.Values))
      ensures CreateDone(source, cmdArgs, reply)
    {
      var request := CreateRequest(cmdArgs, polls.Keys);
      if request.Failure? {
        return Notices([CreateErrorNotice(request.error)]);
      }
      reply := OpenPoll(Nick(source), request.value);
    }

    /** The rest of `handleCreatePoll`: a new poll, created by `creator`, is
        stored under its ID after every open poll, and shown. */
    method OpenPoll(creator: string, request: CreateArgs) returns (reply: Reply)
      requires Valid()
      requires request.pollID !in polls && |request.pollID| <= PollIDMaxLen
      modifies this
      ensures Valid()
      ensures request.pollID in polls && polls == old(polls)[request.pollID := polls[request.pollID]]
      ensures pollOrder == old(pollOrder) + [request.pollID]
      ensures Updated(old(polls).Keys, None)
      ensures fresh(polls[request.pollID]) && Opened(request.pollID, creator, request)
      ensures reply == Notices([PollCreated(request.pollID)] + InfoOf(request.pollID))
    {
      var CreateArgs(pollID, question, answers) := request;
      var newPoll := new Poll(question, pollID, creator, answers);
      Store(newPoll);
      var lines := DisplayPollInfo(pollID);
      reply := Notices([PollCreated(pollID)] + lines);
    }

    /** Stores a poll under its ID, after every open poll. */
    method Store(poll: Poll)
      requires Valid() && poll.Valid()
      requires poll.pollID !in polls && |poll.pollID| <= PollIDMaxLen
      modifies this
      ensures Valid()
      ensures polls == old(polls)[poll.pollID := poll]
      ensures pollOrder == old(pollOrder) + [poll.pollID]
    {
      polls := polls[poll.pollID := poll];
      assert (pollOrder + [poll.pollID])[..|pollOrder|] == pollOrder;
      pollOrder := pollOrder + [poll.pollID];
    }

    /** `handleVote`: the reply and the new poll states are those of
        `VoteStep` on the states before the command. */
    method HandleVote(source: string, cmdArgs: Option<string>) returns (reply: Reply)
      requires Valid()
      modifies polls.Values
      ensures Valid()
      ensures VoteDone(source, cmdArgs, reply)
    {
      var ballot := ReadBallot(source, cmdArgs);
      if ballot.Failure? {
        return ballot.error;
      }
      reply := CastBallot(source, ballot.value);
    }

    /** The rest of `handleVote`: the poll lookup and the vote. Only the
        poll voted in changes. */
    method CastBallot(source: string, ballot: Ballot) returns (reply: Reply)
      requires Valid()
      modifies polls.Values
      ensures Valid()
      ensures var effect := CountBallot(source, ballot, old(Tallies()));
        reply == effect.reply && Updated(polls.Keys, effect.updated)
    {
      var Ballot(voterHost, pollID, voteAnswer) := ballot;
      if pollID !in polls {
        return Notices([NoSuchPoll(pollID)]);
      }
      var poll := polls[pollID];
      var result := poll.VoteForAnswer(voteAnswer, voterHost);
      forall id | id in polls && id != pollID
        ensures polls[id].State() == old(polls[id].State()) && polls[id].Valid()
      {
        assert polls[id].pollID != poll.pollID;
      }
      match result
      case Failure(error) =>
        reply := Notices([if error == HostAlreadyVoted then AlreadyVoted(source)
                          else NoSuchOption(voteAnswer, pollID)]);
      case Success(option) =>
        reply := Notices([VoteCounted(voteAnswer, option)]);
    }

    /** The polls with IDs in `ids` hold the states they held before, except
        that the one `updated` names, if any, holds its new state. */
    twostate predicate Updated(ids: set<string>, updated: Option<(string, PollState)>)
      reads this, polls.Values
    {
      forall id | id in ids && id in polls && id in old(polls) ::
        polls[id].State() == if updated.Some? && updated.value.0 == id then updated.value.1 else old(polls[id].State())
    }

    /** Nothing changed. */
    twostate predicate Unchanged()
      reads this, polls.Values
    {
      polls == old(polls) && pollOrder == old(pollOrder) && Updated(polls.Keys, None)
    }

    /** What a `createpoll` command did: a request that parses added a new
        poll object after every open poll, with the opening state, and left
        every open poll in place; any other request changed nothing and got one error
        notice. */
    twostate predicate CreateDone(source: string, cmdArgs: Option<string>, reply: Reply)
      reads this, polls.Values
    {
      match CreateRequest(cmdArgs, old(polls).Keys)
      case Failure(error) => Unchanged() && reply == Notices([CreateErrorNotice(error)])
      case Success(request) =>
        && request.pollID in polls && polls == old(polls)[request.pollID := polls[request.pollID]]
        && fresh(polls[request.pollID])
        && pollOrder == old(pollOrder) + [request.pollID]
        && Updated(old(polls).Keys, None)
        && Opened(request.pollID, Nick(source), request)
        && Valid() && reply == Notices([PollCreated(request.pollID)] + InfoOf(request.pollID))
    }

    /** The poll stored under `pollID` is the one `request` asks for, created
        by `creator`, with nobody having voted. */
    ghost predicate Opened(pollID: string, creator: string, request: CreateArgs)
      reads this, polls.Values
    {
      && pollID in polls
      && polls[pollID].State() == Opening(request.answers)
      && polls[pollID].optionCount == |request.answers|
      && polls[pollID].question == request.question
      && polls[pollID].creator == creator
    }

    /** What a `vote` command did: the reply and the poll states are those of
        `VoteStep` on the states before the command. */
    twostate predicate VoteDone(source: string, cmdArgs: Option<string>, reply: Reply)
      reads this, polls.Values
    {
      && polls == old(polls) && pollOrder == old(pollOrder)
      && var effect := VoteStep(source, cmdArgs, old(Tallies()));
         reply == effect.reply && Updated(polls.Keys, effect.updated)
    }

    /** The reply of a command that only reads the registry: `pollinfo`,
        `list`, `help` or a word that names no command. */
    ghost function QueryReply(cmd: string, cmdArgs: Option<string>): Reply
      requires Valid()
      requires !Route(cmd).Vote? && !Route(cmd).CreatePoll?
      reads this, polls.Values
    {
      match Route(cmd)
      case PollInfo => PollInfoReply(cmdArgs)
      case List => ListReply()
      case Help => HelpReply(cmdArgs)
      case NotUnderstood(word) => Notices([UnknownCommand(word)])
    }

    /** What a read-only command did: nothing changed, and the reply is
        `QueryReply`. */
    twostate predicate Answered(cmd: string, cmdArgs: Option<string>, reply: Reply)
      requires !Route(cmd).Vote? && !Route(cmd).CreatePoll?
      reads this, polls.Values
    {
      Unchanged() && Valid() && reply == QueryReply(cmd, cmdArgs)
    }

    /** What one command did: the reply and the change of state of the
        handler its first word selects. */
    twostate predicate Performed(source: string, cmdInput: string, reply: Reply)
      requires old(Valid())
      reads this, polls.Values
    {
      var (cmd, cmdArgs) := SplitCommand(cmdInput);
      if Route(cmd).Vote? then VoteDone(source, cmdArgs, reply)
      else if Route(cmd).CreatePoll? then CreateDone(source, cmdArgs, reply)
      else Answered(cmd, cmdArgs, reply)
    }

    /** The read-only branches of `do_command`. */
    method Answer(cmd: string, cmdArgs: Option<string>) returns (reply: Reply)
      requires Valid()
      requires !Route(cmd).Vote? && !Route(cmd).CreatePoll?
      ensures Answered(cmd, cmdArgs, reply)
    {
      match Route(cmd)
      case PollInfo =>
        reply := HandlePollInfo(cmdArgs);
      case List =>
        reply := HandleList();
      case Help =>
        reply := HelpReply(cmdArgs);
      case NotUnderstood(word) =>
        reply := Notices([UnknownCommand(word)]);
    }

    /** `do_command`: dispatches on the first word of the command. */
    method DoCommand(source: string, cmdInput: string) returns (reply: Reply)
      requires Valid()
      modifies this, polls.Values
      ensures Valid()
      ensures fresh(polls.Values - old(polls.Values))
      ensures Performed(source, cmdInput, reply)
    {
      var (cmd, cmdArgs) := SplitCommand(cmdInput);
      match Route(cmd)
      case CreatePoll =>
        reply := HandleCreatePoll(source, cmdArgs);
      case Vote =>
        reply := HandleVote(source, cmdArgs);
      case _ =>
        reply := Answer(cmd, cmdArgs);
    }

    /** `on_pubmsg`: a channel message addressed to the bot runs its command;
        any other message is ignored. */
    method OnPubmsg(source: string, text: string) returns (reply: Option<Reply>)
      requires Valid()
      modifies this, polls.Values
      ensures Valid()
      ensures fresh(polls.Values - old(polls.Values))
      ensures match CommandInput(text, nickname)
        case None =>
          reply == None && Unchanged()
        case Some(cmdInput) =>
          reply.Some? && Performed(source, cmdInput, reply.value)
    {
      var cmdInput := CommandInput(text, nickname);
      if cmdInput.None? {
        return None;
      }
      var r := DoCommand(source, cmdInput.value);
      reply := Some(r);
    }
  }

  /** A command word without spaces followed by a space and its arguments
      is split back into the two. */
  lemma CommandLine(word: string, args: string)
    requires ' ' !in word
    ensures SplitCommand(word + " " + args) == (word, Some(args))
  {
    SplitOnceAt(word, ' ', args);
    assert word + " " + args == word + [' '] + args;
  }

  /** The arguments of a `createpoll` that asks for poll `id` with a
      question and answers, each written without escapes. */
  function CreateLine(id: string, question: Shlex.Written, answers: seq<Shlex.Written>): string {
    Shlex.Line([Shlex.Bare(id), question] + answers)
  }

  /** Such a line asks for that poll on a bot with no polls. */
  lemma CreateLineRequest(id: string, question: Shlex.Written, answers: seq<Shlex.Written>)
    requires Shlex.Writable(Shlex.Bare(id)) && |id| <= PollIDMaxLen
    requires Shlex.Writable(question) && answers != [] && forall a | a in answers :: Shlex.Writable(a)
    ensures CreateRequest(Some(CreateLine(id, question, answers)), {})
         == Success(CreateArgs(id, question.text, Shlex.Texts(answers)))
  {
    var line := CreateLine(id, question, answers);
    assert line == id + (" " + Shlex.Line([question] + answers)) by {
      assert ([Shlex.Bare(id), question] + answers)[1..] == [question] + answers;
    }
    assert line != [] by { assert line[0] == id[0]; }
    CreatePollArgsRoundTrip(Shlex.Bare(id), question, answers, {});
  }

  /** `lines` show a new poll `id`: the creation notice, the header, and
      every answer, in order, with no votes. */
  predicate ShowsOpening(lines: seq<Notice>, id: string, question: string, texts: seq<string>) {
    && |lines| == |texts| + 2
    && lines[0] == PollCreated(id) && lines[1] == PollHeader(id, question)
    && forall k | 2 <= k <= |texts| + 1 :: lines[k] == OptionStats(k - 1, AnswerOption(texts[k - 2], k - 1, 0))
  }

  /** `lines` show poll `id` after one vote for its first answer: the
      header, the first answer with one vote, and every other answer, in
      order, with none. */
  predicate ShowsFirstVote(lines: seq<Notice>, id: string, question: string, texts: seq<string>) {
    && texts != [] && |lines| == |texts| + 1
    && lines[0] == PollHeader(id, question)
    && lines[1] == OptionStats(1, AnswerOption(texts[0], 1, 1))
    && forall k | 2 <= k <= |texts| :: lines[k] == OptionStats(k, AnswerOption(texts[k - 1], k, 0))
  }

  /** The display of a poll in its opening state. */
  lemma OpeningLines(id: string, question: string, texts: seq<string>, m: map<int, AnswerOption>)
    requires forall k | 1 <= k <= |texts| :: k in m && m[k] == AnswerOption(texts[k - 1], k, 0)
    ensures ShowsOpening([PollCreated(id)] + InfoLines(id, question, m, |texts|), id, question, texts)
  {
    InfoLinesInOrder(id, question, m, |texts|);
    var shown := InfoLines(id, question, m, |texts|);
    forall k | 2 <= k <= |texts| + 1
      ensures ([PollCreated(id)] + shown)[k] == OptionStats(k - 1, AnswerOption(texts[k - 2], k - 1, 0))
    {
      assert shown[k - 1] == OptionStats(k - 1, m[k - 1]);
    }
  }

  /** The display of a poll after one vote for its first answer. */
  lemma FirstVoteLines(id: string, question: string, texts: seq<string>, m: map<int, AnswerOption>)
    requires texts != [] && 1 in m && m[1] == AnswerOption(texts[0], 1, 1)
    requires forall k | 2 <= k <= |texts| :: k in m && m[k] == AnswerOption(texts[k - 1], k, 0)
    ensures ShowsFirstVote(InfoLines(id, question, m, |texts|), id, question, texts)
  {
    InfoLinesInOrder(id, question, m, |texts|);
  }

  /** After one vote for answer 1 of a new poll, answer 1 has one vote and
      every other answer still has none. */
  lemma FirstVoteAnswers(texts: seq<string>, m: map<int, AnswerOption>)
    requires texts != [] && m == Numbered(texts)[1 := AnswerOption(texts[0], 1, 1)]
    ensures 1 in m && m[1] == AnswerOption(texts[0], 1, 1)
    ensures forall k | 2 <= k <= |texts| :: k in m && m[k] == AnswerOption(texts[k - 1], k, 0)
  {
    NumberedAnswers(texts);
  }

  /** A poll just opened under `id` is shown, after the creation notice,
      with every answer in order and no votes. */
  lemma OpenedShows(bot: VoteBot, id: string, question: string, texts: seq<string>, reply: Reply)
    requires bot.Valid() && id in bot.polls && bot.polls[id].State() == Opening(texts)
    requires bot.polls[id].question == question && bot.polls[id].optionCount == |texts|
    requires reply == Notices([PollCreated(id)] + bot.InfoOf(id))
    ensures reply.Notices? && ShowsOpening(reply.lines, id, question, texts)
  {
    var poll := bot.polls[id];
    assert poll.Valid();
    NumberedAnswers(texts);
    OpeningLines(id, question, texts, poll.answers);
  }

  /** The tallies of a bot that holds one poll. */
  lemma TalliesOfOne(bot: VoteBot, id: string, poll: Poll)
    requires bot.polls == map[id := poll]
    ensures bot.Tallies() == map[id := poll.State()]
  {
  }

  /** `pollinfo` of a poll after one vote for its first answer shows that
      vote. */
  lemma ShownAfterFirstVote(bot: VoteBot, id: string, question: string, texts: seq<string>, reply: Reply)
    requires IsWord(id) && texts != []
    requires bot.Valid() && id in bot.polls
    requires bot.polls[id].question == question && bot.polls[id].optionCount == |texts|
    requires bot.polls[id].answers == Numbered(texts)[1 := AnswerOption(texts[0], 1, 1)]
    requires reply == bot.PollInfoReply(Some(id))
    ensures reply.Notices? && ShowsFirstVote(reply.lines, id, question, texts)
  {
    var poll := bot.polls[id];
    WordsUnwords([id]);
    assert poll.Valid();
    FirstVoteAnswers(texts, poll.answers);
    assert reply.lines == InfoLines(id, question, poll.answers, |texts|);
    FirstVoteLines(id, question, texts, poll.answers);
  }

  /** `createpoll` on a bot with no polls opens poll `id`, its only poll, and
      shows it. */
  method CreateFirstPoll(bot: VoteBot, source: string, id: string, question: Shlex.Written,
                         answers: seq<Shlex.Written>) returns (created: Reply)
    requires bot.Valid() && bot.polls == map[]
    requires Shlex.Writable(Shlex.Bare(id)) && |id| <= PollIDMaxLen
    requires Shlex.Writable(question) && answers != [] && forall a | a in answers :: Shlex.Writable(a)
    modifies bot
    ensures bot.Valid() && id in bot.polls && bot.polls == map[id := bot.polls[id]] && fresh(bot.polls[id])
    ensures bot.Tallies() == map[id := Opening(Shlex.Texts(answers))]
    ensures bot.polls[id].question == question.text && bot.polls[id].optionCount == |answers|
    ensures created.Notices? && ShowsOpening(created.lines, id, question.text, Shlex.Texts(answers))
  {
    var createArgs := CreateLine(id, question, answers);
    CommandLine(CmdCreatePoll, createArgs);
    CreateLineRequest(id, question, answers);
    assert bot.polls.Keys == {};
    created := bot.DoCommand(source, CmdCreatePoll + " " + createArgs);
    var poll := bot.polls[id];
    TalliesOfOne(bot, id, poll);
    OpenedShows(bot, id, question.text, Shlex.Texts(answers), created);
  }

  /** A command line that starts with `vote` did what `VoteDone` says. */
  twostate lemma PerformedVote(bot: VoteBot, new source: string, new cmdArgs: string, new reply: Reply)
    requires old(bot.Valid()) && bot.Performed(source, CmdVote + " " + cmdArgs, reply)
    ensures bot.VoteDone(source, Some(cmdArgs), reply)
  {
    CommandLine(CmdVote, cmdArgs);
  }

  /** What a `vote` for answer 1 of a new poll did. */
  twostate lemma VotedFirst(bot: VoteBot, new nick: string, new user: string, new host: string,
                            new id: string, new texts: seq<string>, new voted: Reply)
    requires '!' !in nick && '@' !in user && IsWord(id) && texts != []
    requires old(bot.Valid()) && id in old(bot.polls) && old(bot.Tallies()) == map[id := Opening(texts)]
    requires bot.VoteDone(nick + "!" + user + "@" + host, Some(Unwords([id, Numerals.IntToDecimal(1)] + [])), voted)
    ensures bot.polls == old(bot.polls)
    ensures bot.polls[id].answers == Numbered(texts)[1 := AnswerOption(texts[0], 1, 1)]
    ensures voted == Notices([VoteCounted(1, AnswerOption(texts[0], 1, 1))])
  {
    NumberedAnswers(texts);
    VoteCommandCounts(nick, user, host, id, 1, [], old(bot.Tallies()));
  }

  /** The first vote for answer 1 of poll `id`, from `nick!user@host`, is
      counted. */
  method VoteFirstAnswer(bot: VoteBot, nick: string, user: string, host: string, id: string,
                         texts: seq<string>) returns (voted: Reply)
    requires '!' !in nick && '@' !in user && IsWord(id) && texts != []
    requires bot.Valid() && id in bot.polls && bot.Tallies() == map[id := Opening(texts)]
    modifies bot, bot.polls.Values
    ensures bot.Valid() && bot.polls == old(bot.polls)
    ensures bot.polls[id].answers == Numbered(texts)[1 := AnswerOption(texts[0], 1, 1)]
    ensures voted == Notices([VoteCounted(1, AnswerOption(texts[0], 1, 1))])
  {
    var voteArgs := Unwords([id, Numerals.IntToDecimal(1)] + []);
    voted := bot.DoCommand(nick + "!" + user + "@" + host, CmdVote + " " + voteArgs);
    PerformedVote(bot, nick + "!" + user + "@" + host, voteArgs, voted);
    VotedFirst(bot, nick, user, host, id, texts, voted);
  }

  /** `pollinfo` of poll `id` after one vote for its first answer. */
  method ShowFirstVote(bot: VoteBot, source: string, id: string, question: string, texts: seq<string>)
      returns (info: Reply)
    requires IsWord(id) && texts != []
    requires bot.Valid() && id in bot.polls
    requires bot.polls[id].question == question && bot.polls[id].optionCount == |texts|
    requires bot.polls[id].answers == Numbered(texts)[1 := AnswerOption(texts[0], 1, 1)]
    modifies bot, bot.polls.Values
    ensures info.Notices? && ShowsFirstVote(info.lines, id, question, texts)
  {
    CommandLine(CmdPollInfo, id);
    ghost var before := bot.polls[id].State();
    info := bot.DoCommand(source, CmdPollInfo + " " + id);
    assert bot.Unchanged() && info == bot.PollInfoReply(Some(id));
    assert bot.polls[id].State() == before;
    ShownAfterFirstVote(bot, id, question, texts, info);
  }

  /** A session on a new bot, one command after another through
      `do_command`: the user `nick!user@host` creates poll `id` with a
      question and answers, votes for its first answer, and asks for its
      info. The creation shows the poll with every count at zero; the vote
      counts one for the first answer; and the info shows the first answer
      with one vote and every other answer, in order, with none. */
  method CreateVoteShow(nick: string, user: string, host: string,
                        id: string, question: Shlex.Written, answers: seq<Shlex.Written>)
      returns (created: Reply, voted: Reply, info: Reply)
    requires '!' !in nick && '@' !in user
    requires Shlex.Writable(Shlex.Bare(id)) && IsWord(id) && |id| <= PollIDMaxLen
    requires Shlex.Writable(question) && answers != [] && forall a | a in answers :: Shlex.Writable(a)
    ensures created.Notices? && ShowsOpening(created.lines, id, question.text, Shlex.Texts(answers))
    ensures voted == Notices([VoteCounted(1, AnswerOption(answers[0].text, 1, 1))])
    ensures info.Notices? && ShowsFirstVote(info.lines, id, question.text, Shlex.Texts(answers))
  {
    var bot := new VoteBot("", nick);
    var source := nick + "!" + user + "@" + host;
    created := CreateFirstPoll(bot, source, id, question, answers);
    voted := VoteFirstAnswer(bot, nick, user, host, id, Shlex.Texts(answers));
    info := ShowFirstVote(bot, source, id, question.text, Shlex.Texts(answers));
  }
}

=== FILE: wrappers.dfy ===
/** Option and Result: the two failure-carrying shapes the model uses instead of
    Python's None and exceptions. */
module Wrappers {

  datatype Option<+T> = None | Some(value: T)

  datatype Result<+R, +E> = Success(value: R) | Failure(error: E)
}
